=== FILE: README.md ===
# Spot: plot bounds, canvas mapping, adaptive grid and pie-sector geometry

A model of the plotting core of the Spot WPF library. It covers three parts.

The plot control, `SpotControl`, is modelled as a Dafny class with these parts:
- Its state: the list of graphs, the four bounds `Xmin`/`Xmax`/`Ymin`/`Ymax`, the fixed-bounds flag and rectangle, the canvas size, and the grid and display options.
- The list operations, which edit the graphs in place and then recompute the bounds.
- `UpdateBounds`, which is either the fixed rectangle or a fold of min/max over every point, followed by the degenerate-axis correction.
- The linear data-to-canvas map with its y flip.
- The redraw:
  - the primitives `UpdatePoints` puts on the canvas;
  - the halving loop that sizes the grid cells;
  - the grid lines;
  - the tick values written along the axes.

The pie sector is modelled as a pure function. `DefiningGeometry` takes the shape's properties (or their registered defaults) to a single open arc figure.

A graph is a value: a name and a polyline (points, stroke, thickness).

Doubles are modelled as `real`, and `Math.Cos`/`Math.Sin` are function parameters. `Math.PI` is the constant 3.141592653589793.

Modules (one file each):
- `GraphModel` (graph.dfy): points, polylines and graphs.
- `Bounds` (bounds.dfy): the viewport, the fold, the line tests and the auto-mode bounds as functions, with their properties.
- `CanvasMap` (canvas_map.dfy): `updateCoordinates`/`updateY` and their inverse.
- `Grid` (grid.dfy):
  - the halving loop (a method);
  - the tick values (a method and the functions that specify it);
  - the grid lines, both as written and corrected.
- `Render` (render.dfy): the primitives `UpdatePoints` produces.
- `Spot` (spot_control.dfy): the `SpotControl` class and the list operations on values.
- `PieSector` (pie_sector.dfy): the arc geometry.
- `Wrappers` (wrappers.dfy): `Option`.

Two behaviours of the code are easy to misread:
- `UnfixBounds` only clears the flag. The bounds stay at the fixed rectangle until the next `UpdateBounds`. `Spot.SpotControl.UnfixBounds` states exactly that.
- The grid-line loops draw something other than the inner cell boundaries (see "## Findings"). The control's redraw is modelled with the lines the loops draw. The lines that were evidently meant are modelled beside them, as `Grid.GridLines`.

## Model

| member | source | states |
|---|---|---|
| GraphModel.NewGraph | SpotLibrary/Graph.cs:13 | The parameterless graph has an empty name and a fresh polyline with no points, no stroke and thickness 1. |
| GraphModel.NewPolyline | SpotLibrary/Graph.cs:13 | A new polyline has no points, no stroke and thickness 1. |
| GraphModel.WithPoints | SpotLibrary/Graph.cs:7-8 | The only change a graph sees after construction replaces its point list. Its name, stroke and thickness are kept, as the private setters ensure. |
| Bounds.FixedRect | SpotLibrary/SpotControl.xaml.cs:608 | The fixed rectangle has non-negative width and height. Its left/right edges are min/max of left and right, and its top/bottom edges are min/max of top and bottom, whatever order the corners came in. |
| Bounds.FoldAppend | SpotLibrary/SpotControl.xaml.cs:391-405 | Folding graph after graph is folding the concatenation of their points. |
| Bounds.FoldContains | SpotLibrary/SpotControl.xaml.cs:391-405 | The fold only moves the bounds outwards from where they started, and every point it has seen lies inside the result. |
| Bounds.FoldedContainsAll | SpotLibrary/SpotControl.xaml.cs:376-405 | After the fold, every point of every graph satisfies Xmin <= x <= Xmax and Ymin <= y <= Ymax. |
| Bounds.FoldIsExtent | SpotLibrary/SpotControl.xaml.cs:391-405 | Folding from the box of the first point gives exactly the smallest and largest x and y. These come from a reference definition that does not use the fold. |
| Bounds.ExtentAttained | SpotLibrary/SpotControl.xaml.cs:391-405 | Each of the four extremes is the coordinate of some point, named by the returned index. |
| Bounds.FoldedExact | SpotLibrary/SpotControl.xaml.cs:381-405 | When the first graph has points, the folded bounds are exactly the min and max of x and y over all points. |
| Bounds.FoldedHasOrigin | SpotLibrary/SpotControl.xaml.cs:377-390 | With no graphs, or an empty first graph, the fold starts at 0, so the origin is always inside the bounds. |
| Bounds.LineIffFlat | SpotLibrary/SpotControl.xaml.cs:406-423 | The vertical-line flag is set iff the folded Xmin == Xmax, and the horizontal-line flag is set iff Ymin == Ymax. |
| Bounds.AutoViewportWidening | SpotLibrary/SpotControl.xaml.cs:406-433 | The correction widens x by 1 on each side iff x is flat, and leaves it alone otherwise. The same holds for y, independently. |
| Bounds.AutoViewportSound | SpotLibrary/SpotControl.xaml.cs:376-433 | Auto bounds contain every point and always end with Xmin < Xmax and Ymin < Ymax. |
| Bounds.NoPointsViewport | SpotLibrary/SpotControl.xaml.cs:377-433 | With no points at all, the auto bounds are [-1,1] x [-1,1]. |
| Bounds.SinglePointViewport | SpotLibrary/SpotControl.xaml.cs:376-433 | The single point (5,5) gives [4,6] x [4,6]. |
| Bounds.EmptyFirstGraphViewport | SpotLibrary/SpotControl.xaml.cs:377-405 | An empty first graph followed by a graph holding only (5,5) gives [0,5] x [0,5]: the origin stays in view. |
| CanvasMap.FlipY | SpotLibrary/SpotControl.xaml.cs:590-596 | updateY keeps x and maps y to CanvasHeight - y. |
| CanvasMap.FlipYInvolution | SpotLibrary/SpotControl.xaml.cs:590-596 | Turning the ordinate over twice gives the point back. |
| CanvasMap.LinearMonotone | SpotLibrary/SpotControl.xaml.cs:579-580 | Each axis of the map strictly increases when its span and the canvas length are positive. |
| CanvasMap.LinearInside | SpotLibrary/SpotControl.xaml.cs:579-580 | A coordinate inside the span lands in [0, canvas length]. |
| CanvasMap.ToCanvasCorners | SpotLibrary/SpotControl.xaml.cs:576-596 | (Xmin,Ymin) maps to (0,CanvasHeight), (Xmax,Ymax) to (CanvasWidth,0), and the other two corners likewise. |
| CanvasMap.ToCanvasMonotone | SpotLibrary/SpotControl.xaml.cs:576-596 | Canvas x increases with data x. Canvas y decreases as data y increases. |
| CanvasMap.ToCanvasInside | SpotLibrary/SpotControl.xaml.cs:576-596 | A point inside the bounds lands on the canvas rectangle. |
| CanvasMap.ToCanvasRoundTrip | SpotLibrary/SpotControl.xaml.cs:576-596 | On a canvas of nonzero size with nonzero spans, the inverse map undoes updateCoordinates. |
| CanvasMap.FromCanvasRoundTrip | SpotLibrary/SpotControl.xaml.cs:576-596 | updateCoordinates undoes the inverse map, so the map is a bijection of the plane. |
| Grid.ComputeGrid | SpotLibrary/SpotControl.xaml.cs:483-496 | The loop terminates when both minimum cells are positive. Each count is then a power of two, each cell is the canvas length divided by the count, half a cell is below the minimum, and a count above 1 has cells at least the minimum. |
| Grid.SettledIsLargest | SpotLibrary/SpotControl.xaml.cs:487-496 | The settled count is the largest power of two whose cell is still at least the minimum. |
| Grid.SettledUnique | SpotLibrary/SpotControl.xaml.cs:487-496 | So the count and the cell size the loop settles on are determined by the axis length and the minimum. |
| Grid.Grid256By128 | SpotLibrary/SpotControl.xaml.cs:483-496 | A 256 x 128 canvas with 60 x 60 minimum cells is cut 4 x 2, into 64 x 64 cells. |
| Grid.XTicksShape | SpotLibrary/SpotControl.xaml.cs:531-534 | There are exactly nX + 1 x values, from Xmin to Xmax, in equal steps of (Xmax - Xmin) / nX. |
| Grid.YTicksShape | SpotLibrary/SpotControl.xaml.cs:542-547 | There are exactly nY + 1 y values, from Ymax down to Ymin, in equal steps of (Ymax - Ymin) / nY. |
| Grid.TicksStrictlyOrdered | SpotLibrary/SpotControl.xaml.cs:531-547 | On bounds with positive spans, the x values strictly increase and the y values strictly decrease. |
| Grid.TickValues | SpotLibrary/SpotControl.xaml.cs:531-556 | The label loop yields the x values and the y values above. The y values come only from the i == 0 pass of the outer loop, once each. |
| Grid.HalvingRound | SpotLibrary/SpotControl.xaml.cs:485-495 | One round of the halving loop for any minimum cell ends the loop exactly when neither cell's half is at least its minimum. The halving and the 32-bit wrap of the doubled int counts are stated through Grid.NonPositiveMinimumNeverStops. |
| Grid.NonPositiveMinimumNeverStops | SpotLibrary/SpotControl.xaml.cs:483-496 | With a minimum cell width of 0 or less on a canvas of non-negative width, the loop has not stopped after any number k of rounds. The int column count is then 2^k wrapped to 32 bits: exactly 2^k up to k = 30, int.MinValue at k = 31 and 0 from k = 32 on. |
| Grid.GridLinesAsWritten | SpotLibrary/SpotControl.xaml.cs:499-528 | The grid-line loops as written produce the lines LinesAsWritten describes. For each i < nX there is an across-line at margin + i * sizeY (skipping i == 0), then nY - 1 copies of the down-line at margin + i * sizeX. |
| Grid.LinesAsWrittenMisplaced | SpotLibrary/SpotControl.xaml.cs:483-528 | A 256 x 100 canvas with 60 x 60 minimum cells settles at 4 x 1 cells of 64 x 100. The loops as written then draw three across-lines at or below the bottom edge and no down-line. |
| Grid.GridLinesInside | SpotLibrary/SpotControl.xaml.cs:497-529 | The corrected lines are the nX - 1 inner column boundaries, line k at boundary k + 1, followed by the nY - 1 inner row boundaries in the same way. The positions strictly increase, so each boundary is drawn once, and every line lies strictly inside the plot. |
| Render.GraphShapesKind | SpotLibrary/SpotControl.xaml.cs:447-469 | A one-point graph becomes a dot. The dot is centred on the mapped point, as wide and high as the stroke thickness, and filled with the stroke. A graph of several points becomes one polyline through the mapped points, one for one and in order, with the same stroke and thickness. An empty graph becomes nothing. This is the shape built for the graph; a dot of negative thickness is refused by WPF, and Render.Redrawn stops the redraw there. |
| Render.FirstRefused | SpotLibrary/SpotControl.xaml.cs:444-450 | Finds the first one-point graph whose thickness is negative, so that the ellipse's Width would be negative. None means no graph is refused; otherwise every earlier graph is accepted. |
| Render.Redrawn | SpotLibrary/SpotControl.xaml.cs:440-472 | The redraw throws exactly when the canvas has area and some one-point graph has negative thickness. Without a throw, the canvas holds the shapes Render.Shapes describes. With a throw, it holds the shapes of the graphs before the first refused one. |
| Render.RedrawnDotsSized | SpotLibrary/SpotControl.xaml.cs:446-457 | Every dot left on the canvas by a redraw, whether or not it threw, has a width and height of zero or more. |
| Render.AllShapesDotsSized | SpotLibrary/SpotControl.xaml.cs:444-470 | When no graph's dot is refused, every dot drawn has a width and height of zero or more. |
| Render.AllShapesCount | SpotLibrary/SpotControl.xaml.cs:445-470 | There is exactly one shape per non-empty graph. |
| Render.ShapesCount | SpotLibrary/SpotControl.xaml.cs:440-472 | Nothing is drawn on a canvas of zero width or height. Otherwise there is one shape per non-empty graph. |
| Render.AllShapesOnCanvas | SpotLibrary/SpotControl.xaml.cs:445-470 | When every point lies inside the bounds, every dot centre and every polyline vertex lies on the canvas. |
| Render.AutoShapesOnCanvas | SpotLibrary/SpotControl.xaml.cs:440-472 | Under auto bounds the map is always defined, and everything drawn lands on the canvas. |
| Spot.FirstNamed | SpotLibrary/SpotControl.xaml.cs:271-281 | The index found is the first graph with the name. None means no graph has it. |
| Spot.RemoveAt | SpotLibrary/SpotControl.xaml.cs:213 | Taking out index i keeps every other graph, in order. |
| Spot.AppendPoints | SpotLibrary/SpotControl.xaml.cs:255-258 | The old points are kept as a prefix and the new ones follow, in order. The name, stroke and thickness are kept. |
| Spot.Without | SpotLibrary/SpotControl.xaml.cs:303-308 | The removal keeps exactly the points that are not among the given ones, and nothing is added. |
| Spot.WithoutOne | SpotLibrary/SpotControl.xaml.cs:303-308 | A single point is kept exactly when it is not among those to drop. |
| Spot.WithoutAppend | SpotLibrary/SpotControl.xaml.cs:303-308 | Removal works piecewise and keeps order: the kept points of a concatenation are the kept points of each part, one after the other. With WithoutOne, this fixes the result to every point not dropped, in order, with its repetitions. |
| Spot.FirstAmong | SpotLibrary/SpotControl.xaml.cs:303-306 | Finds the first point among those to drop. None means no point is among them; otherwise every earlier point is kept. |
| Spot.RemovalAsWritten | SpotLibrary/SpotControl.xaml.cs:303-309 | The removal loop as written. With no point among those to drop, the list is kept and nothing is thrown. Otherwise exactly the first such point is taken out, the rest keep their order, and the loop throws. |
| Spot.RemovalAsWrittenStopsEarly | SpotLibrary/SpotControl.xaml.cs:303-309 | Dropping both points of a two-point graph: the loop as written takes out only the first and throws, where Spot.Without leaves no point. |
| Spot.WithoutNothing | SpotLibrary/SpotControl.xaml.cs:303-308 | When none of the points is to be removed, the list is kept whole and in order. |
| Spot.WithoutIdempotent | SpotLibrary/SpotControl.xaml.cs:303-308 | Removing the same points a second time changes nothing. |
| Spot.RecomputedMappable | SpotLibrary/SpotControl.xaml.cs:376-433 | Auto-mode bounds have positive spans, so updateCoordinates is defined on them. |
| Spot.FilterPoints | SpotLibrary/SpotControl.xaml.cs:303-308 | Collecting the points not among the given ones, one by one, yields Without. |
| Spot.AutoRedrawOnCanvas | SpotLibrary/SpotControl.xaml.cs:366-472 | After a recompute in auto mode, a redraw is defined and puts every dot centre and polyline vertex on the canvas. |
| Spot.SpotControl.constructor | SpotLibrary/SpotControl.xaml.cs:116-131 | The default control has no graphs, auto bounds, the grid shown, 60 x 60 minimum cells and three digits. Its bounds are [-1,1] x [-1,1]. |
| Spot.SpotControl.WithOptions | SpotLibrary/SpotControl.xaml.cs:144-171 | The control keeps the given grid and display options, has no graphs and is in auto mode. Its bounds are [-1,1] x [-1,1]. |
| Spot.SpotControl.UpdateBounds | SpotLibrary/SpotControl.xaml.cs:366-435 | The bounds become the fixed rectangle's edges in fixed mode, or the auto bounds (fold, then correction) otherwise. Only the four bounds change. |
| Spot.SpotControl.FoldBounds | SpotLibrary/SpotControl.xaml.cs:377-405 | The seed, then the nested loops over graphs and points, leave exactly the folded bounds. |
| Spot.SpotControl.IncludePoints | SpotLibrary/SpotControl.xaml.cs:394-404 | The inner loop over one graph's points continues the fold from the current bounds. |
| Spot.SpotControl.IncludePoint | SpotLibrary/SpotControl.xaml.cs:398-403 | Each bound moves out to the point when the point lies beyond it. |
| Spot.SpotControl.LineFlags | SpotLibrary/SpotControl.xaml.cs:406-423 | The flag scan, with its early breaks, returns exactly whether all points lie on the line x == Xmin == Xmax and whether all lie on y == Ymin == Ymax. |
| Spot.SpotControl.WidenBounds | SpotLibrary/SpotControl.xaml.cs:424-433 | A flagged axis is widened by 1 on each side. An axis that is not flagged is kept. |
| Spot.SpotControl.AddGraph | SpotLibrary/SpotControl.xaml.cs:184-194 | Exactly one graph is appended at the end, holding the given points in order with the given colour (possibly null), thickness and name. The earlier graphs are untouched, and the bounds are recomputed. |
| Spot.SpotControl.RemoveGraphAt | SpotLibrary/SpotControl.xaml.cs:209-221 | An index in range removes that graph and recomputes. An index out of range fails with the wrapped ArgumentException and changes nothing. |
| Spot.SpotControl.RemoveGraphNamed | SpotLibrary/SpotControl.xaml.cs:227-246 | Only the first graph with the name is removed. When none has it, the list is kept and nothing is thrown. The bounds are recomputed either way. |
| Spot.SpotControl.AddPointsAt | SpotLibrary/SpotControl.xaml.cs:253-261 | The points are appended in order to the graph at the index, and the bounds are recomputed. With no points the index is never looked up. With points and a bad index, the list's own error comes before anything changes. |
| Spot.SpotControl.AddPointsNamed | SpotLibrary/SpotControl.xaml.cs:268-292 | The points are appended to the first graph with the name, and the bounds are recomputed. With no such graph it fails with the ArgumentException naming the graph, and nothing changes. |
| Spot.SpotControl.RemovePointsAt | SpotLibrary/SpotControl.xaml.cs:299-317 | The graph at the index keeps exactly its points not among the given ones, and the bounds are recomputed. A bad index fails wrapped and changes nothing. |
| Spot.SpotControl.RemovePointsNamed | SpotLibrary/SpotControl.xaml.cs:324-351 | Only the first graph is examined. If it has the name, its matching points are removed and the bounds recomputed. Otherwise, and with no graphs, it fails with a bare ArgumentException and nothing changes. |
| Spot.SpotControl.ClearGraphs | SpotLibrary/SpotControl.xaml.cs:356-361 | The list becomes empty. The bounds become the fixed rectangle in fixed mode, or [-1,1] x [-1,1] otherwise. |
| Spot.SpotControl.FixBounds | SpotLibrary/SpotControl.xaml.cs:605-611 | Fixed mode is on, and the bounds are Xmin = min(l,r), Xmax = max(l,r), Ymin = min(t,b), Ymax = max(t,b), whatever the graphs. |
| Spot.SpotControl.UnfixBounds | SpotLibrary/SpotControl.xaml.cs:616 | Only the flag is cleared. The bounds stay as they were until the next recompute. |
| Spot.SpotControl.UpdateCoordinates | SpotLibrary/SpotControl.xaml.cs:576-583 | On a canvas of nonzero size, the mapped point maps back to the data point. |
| Spot.SpotControl.UpdatePoints | SpotLibrary/SpotControl.xaml.cs:440-472 | The redraw of the points leaves exactly the shapes Render.Redrawn describes. It throws exactly when the canvas has area and a one-point graph has negative thickness, leaving the shapes of the graphs before that one. |
| Spot.SpotControl.UpdateAxises | SpotLibrary/SpotControl.xaml.cs:477-558 | Nothing is drawn on a canvas without area. Otherwise the output holds the settled grid of both axes, the grid lines the loops draw when the grid is shown (none otherwise), and the x and y tick values. |
| Spot.SpotControl.Update | SpotLibrary/SpotControl.xaml.cs:563-569 | The canvas size is taken from the layout. The points are redrawn as Render.Redrawn describes. When that throws, the axes are not redrawn. Otherwise, on a canvas with area, the axes get the settled grid, the grid lines the loops draw and the tick values for the new size; on a canvas without area, no axes are drawn. |
| PieSector.DefaultSector | SpotLibrary/Pie/PieSector.cs:22-80 | The defaults are Center (0,0), StartAngle 0, EndAngle pi/2, Radius 10 and SmallAngle false. |
| PieSector.Normalize | SpotLibrary/Pie/PieSector.cs:94-95 | A negative angle gets 2 pi added once. An input in [-2 pi, 2 pi) ends in [0, 2 pi). |
| PieSector.Angles | SpotLibrary/Pie/PieSector.cs:94-100 | For inputs in [-2 pi, 2 pi): a0 is in [0, 2 pi), and a0 <= a1 < a0 + 2 pi. |
| PieSector.DefiningGeometry | SpotLibrary/Pie/PieSector.cs:89-138 | A negative Radius gives no geometry (None), because the Size of radii (Radius, Radius) throws an ArgumentException; any other Radius gives one. That geometry is one open figure with EvenOdd fill. It starts at Center + Radius (cos a0, sin a0) and holds one stroked arc with radii (Radius, Radius) and rotation 0. The arc ends at Center + Radius (cos a1, sin a1) and carries the flags ArcFlags picks. |
| PieSector.SmallAngleFlags | SpotLibrary/Pie/PieSector.cs:105-119 | With SmallAngle, the arc is never "large", and the sweep is Counterclockwise iff a1 - a0 > pi (Clockwise otherwise). |
| PieSector.WideAngleFlags | SpotLibrary/Pie/PieSector.cs:102-122 | Without SmallAngle, the sweep is Counterclockwise, and the arc is "large" iff abs(a1 - a0) < pi. |
| PieSector.ArcFlagsMatchSweep | SpotLibrary/Pie/PieSector.cs:102-122 | On the canvas, y grows downwards, so Clockwise means increasing angle. There, the large-arc flag is set exactly when the arc traced is longer than half a turn, and with SmallAngle the traced arc never is. So the inverted-looking polarity is consistent. |
| PieSector.DefaultGeometry | SpotLibrary/Pie/PieSector.cs:94-125 | The default sector gives a0 = 0, a1 = pi/2, a "large" arc and a Counterclockwise sweep, from (10 cos 0, 10 sin 0) to (10 cos pi/2, 10 sin pi/2). |
| PieSector.NegativeStartAngle | SpotLibrary/Pie/PieSector.cs:94 | A start angle of -pi/2 is drawn from 3 pi / 2. |

## Left out

- WPF objects are not modelled. That covers `Ellipse`, `Polyline`, `Line`, `TextBlock`, margins, brushes, `GridColor`, `MainBorder` and the visual tree. The model keeps only the numbers those objects are given: positions, sizes, stroke and thickness.
- Image export (`SaveAsImage` and the bitmap encoders) is file I/O and is not modelled.
- The `lvInfo` column resizing and collection-changed handler are not modelled. Neither is the dummy add/remove refresh in `ShowGraphInfo`, nor the `lvInfo` visibility toggle in `AddGraph`. These are UI plumbing with no effect on the plot's numbers.
- The plot name and the axis names the second constructor takes are display text only and are not modelled. So are its grid colour and `showGraphInfo`.
- Tick labels are real values. `Math.Round(..., DigitsAfterPoint).ToString()` and the text layout of the labels are not modelled.
- Spot.SpotControl.UpdateAxises: does not model the ArgumentOutOfRangeException `Math.Round` throws for a DigitsAfterPoint outside 0..15, because the label text is not modelled.
- Each mutator in the source ends with `Update()`, which reads the canvas size from the layout and redraws. In the model the mutators end with the bounds recompute. The redraw is the separate `Spot.SpotControl.Update`, which takes the canvas size as a parameter because the layout is outside the model.
- Spot.SpotControl.RemovePointsAt: models the evidently intended effect: drop the points among the given ones and keep the rest in order. The source removes points from the `PointCollection` it is enumerating. That enumerator throws an InvalidOperationException on the `MoveNext` after the first removal, which this overload rethrows wrapped as an ArgumentException. So as written, only the first matching point is removed, and the bounds are not recomputed (`Spot.RemovalAsWritten`, see "## Findings").
- Spot.SpotControl.RemovePointsNamed: models the same intended effect. As written it removes only the first matching point, and then the InvalidOperationException escapes unwrapped.
- Spot.SpotControl.UpdateCoordinates: requires nonzero spans. With a zero span the source divides by zero and produces NaN or infinity. Auto bounds never have a zero span (`Bounds.AutoViewportSound`), but a fixed rectangle of zero width or height does.
- Spot.SpotControl.UpdatePoints: requires the same nonzero spans whenever some graph has a point and the canvas has area.
- Spot.SpotControl.Update: requires the same nonzero spans as UpdatePoints.
- Grid.ComputeGrid: requires positive minimum cells. Without that, the loop never stops (see "## Findings"). Its counts are unbounded integers: the source's int counts would wrap only on a canvas more than 2^30 minimum cells wide or high, which `Grid.HalvingRound` models and this method does not.
- Spot.SpotControl.UpdateAxises: requires positive minimum cells on a canvas with area, because it runs Grid.ComputeGrid.
- Spot.SpotControl.WithOptions: the C# default arguments (`gridMinWidth = 60`, `gridMinHeight = 60`, `digitsAfterPoint = 3`, `showGraphInfo = false`) are ordinary parameters here.
- Spot.SpotControl.AddGraph: the C# default arguments (`thickness = 1`, `name = ""`) are ordinary parameters here. The integer thickness is converted to a real, as the `StrokeThickness` assignment does.
- Graphs are values. A WPF `Polyline` is a reference, and the source mutates a graph's point list in place through it. Aliasing between graphs that share a polyline is not modelled.
- `RemoveGraph(index)` removes `Graphs[index]` by value. `Graph` has no equality of its own, so this is reference equality. Every graph in the list is a distinct object, because each comes from its own `new Graph`, so removal by reference is removal at the index.
- Render.GraphShapesKind: it describes the shape built for any graph, including a dot of negative thickness. WPF refuses that dot with an ArgumentException when its Width is set. The redraw models the refusal (`Render.Redrawn`), so such a dot never reaches the canvas.
- Double arithmetic (rounding, overflow to infinity, NaN) is modelled as exact real arithmetic.
- Trigonometry is not modelled: `Math.Cos` and `Math.Sin` are parameters of `PieSector.DefiningGeometry`. The dependency-property registration and style metadata of `PieSector` are kept only as the default values they register.
- The test application (`SpotTestApp`) is not part of this model.

## Findings

| source | as written | input that shows it | evidently intended | confidence | as-written member | corrected member |
|---|---|---|---|---|---|---|
| SpotLibrary/SpotControl.xaml.cs:499-528 | The outer loop runs i over the nX columns but places across-lines at the row positions margin + i * sizeY. The inner loop repeats the down-line at margin + i * sizeX nY - 1 times, including i == 0 (the left edge). | A 256 x 100 canvas with 60 x 60 minimum cells (nX = 4, nY = 1). Three across-lines are drawn at 100, 200 and 300 units below the top, all at or beyond the bottom of the 100-unit plot, and there is no down-line at all. | One down-line at each inner column boundary and one across-line at each inner row boundary, each once, strictly inside the plot. | not executed; follows from the loop bounds | Grid.GridLinesAsWritten, Grid.LinesAsWrittenMisplaced | Grid.GridLines, Grid.GridLinesInside |
| SpotLibrary/SpotControl.xaml.cs:487-496 | The while (true) loop halves a cell whenever half of it is at least the minimum, and GridMinWidth and GridMinHeight are unchecked public integers. | GridMinWidth = 0 on a canvas of width 256: half of any non-negative cell is at least 0, so every round halves x and the loop never breaks. The int column count wraps to int.MinValue after 31 rounds and stays 0 from round 32 on. | The minimum cells are positive (or are rejected), and the loop stops with the largest power-of-two count whose cell is at least the minimum. | not executed; follows from the loop condition | Grid.HalvingRound, Grid.NonPositiveMinimumNeverStops | Grid.ComputeGrid, Grid.SettledIsLargest |
| SpotLibrary/SpotControl.xaml.cs:303-309 | The loop removes matching points from the PointCollection it is enumerating. | Removing the points a and b from a graph of points [a, b]: a is removed, then the next MoveNext throws an InvalidOperationException. The graph keeps [b], and the index overload rethrows the exception as an ArgumentException. | Every point among the given ones is removed, the rest keep their order, and the bounds are recomputed. | not executed; follows from the PointCollection enumerator's check for changes | Spot.RemovalAsWritten, Spot.RemovalAsWrittenStopsEarly | Spot.Without, Spot.SpotControl.RemovePointsAt |

=== FILE: bounds.dfy ===
/**
 * The viewport of a plot: either the fixed rectangle the caller installed, or
 * the bounds folded over every point of every graph, widened by 1 on each side
 * of an axis along which all points coincide.
 */
module Bounds {
  import opened GraphModel

  /** The data-space rectangle that is mapped onto the canvas. */
  datatype Viewport = Viewport(xmin: real, xmax: real, ymin: real, ymax: real)

  /** A WPF Rect: top-left corner and a non-negative size. */
  datatype Rect = Rect(x: real, y: real, width: real, height: real) {
    function Left(): real { x }
    function Top(): real { y }
    function Right(): real { x + width }
    function Bottom(): real { y + height }
  }

  function Min(a: real, b: real): real { if a <= b then a else b }
  function Max(a: real, b: real): real { if a >= b then a else b }
  function Abs(a: real): real { if a < 0.0 then -a else a }

  predicate Contains(v: Viewport, p: Point) {
    v.xmin <= p.x <= v.xmax && v.ymin <= p.y <= v.ymax
  }

  /** The rectangle FixBounds(left, top, right, bottom) installs: the corners are
      put in order whichever way round the caller gave them. */
  function FixedRect(left: real, top: real, right: real, bottom: real): (r: Rect)
    ensures r.width >= 0.0 && r.height >= 0.0
    ensures r.Left() == Min(left, right) && r.Right() == Max(left, right)
    ensures r.Top() == Min(top, bottom) && r.Bottom() == Max(top, bottom)
  {
    Rect(Min(left, right), Min(top, bottom), Abs(right - left), Abs(bottom - top))
  }

  /** Fixed mode copies the rectangle: Left, Right to x and Top, Bottom to y. */
  function FromRect(r: Rect): Viewport {
    Viewport(r.Left(), r.Right(), r.Top(), r.Bottom())
  }

  /** Every point of every graph, graph by graph, each in its own order. */
  function Flatten(gs: seq<Graph>): seq<Point>
    decreases |gs|
  {
    if |gs| == 0 then [] else Flatten(gs[..|gs| - 1]) + gs[|gs| - 1].polyline.points
  }

  /** Where the fold starts: the origin, or the first point of the first graph
      when there is one (so an empty first graph keeps the origin in view). */
  function Seed(gs: seq<Graph>): Viewport {
    if |gs| > 0 && |gs[0].polyline.points| > 0 then
      var p := gs[0].polyline.points[0];
      Viewport(p.x, p.x, p.y, p.y)
    else
      Viewport(0.0, 0.0, 0.0, 0.0)
  }

  /** One step of the fold: the four independent comparisons. */
  function Include(b: Viewport, p: Point): Viewport {
    Viewport(if p.x < b.xmin then p.x else b.xmin,
             if p.x > b.xmax then p.x else b.xmax,
             if p.y < b.ymin then p.y else b.ymin,
             if p.y > b.ymax then p.y else b.ymax)
  }

  /** The fold of Include over the points, in order. */
  function Fold(b: Viewport, pts: seq<Point>): Viewport
    decreases |pts|
  {
    if |pts| == 0 then b else Include(Fold(b, pts[..|pts| - 1]), pts[|pts| - 1])
  }

  /** Folding a concatenation is folding the second part from where the first
      part left the bounds. */
  lemma {:induction false} FoldAppend(b: Viewport, xs: seq<Point>, ys: seq<Point>)
    ensures Fold(b, xs + ys) == Fold(Fold(b, xs), ys)
    decreases |ys|
  {
    if |ys| == 0 {
      assert xs + ys == xs;
    } else {
      var init := ys[..|ys| - 1];
      FoldAppend(b, xs, init);
      assert (xs + ys)[..|xs + ys| - 1] == xs + init;
    }
  }

  /** Every point lies on the vertical line x == xmin == xmax. */
  predicate IsVerticalLine(pts: seq<Point>, b: Viewport) {
    forall k :: 0 <= k < |pts| ==> pts[k].x == b.xmin && pts[k].x == b.xmax
  }

  /** Every point lies on the horizontal line y == ymin == ymax. */
  predicate IsHorizontalLine(pts: seq<Point>, b: Viewport) {
    forall k :: 0 <= k < |pts| ==> pts[k].y == b.ymin && pts[k].y == b.ymax
  }

  /** The degenerate-axis correction, each axis on its own. */
  function Widen(b: Viewport, pts: seq<Point>): Viewport {
    WidenAxes(b, IsVerticalLine(pts, b), IsHorizontalLine(pts, b))
  }

  /** Opens the x range by one on each side when asked to, and the y range likewise. */
  function WidenAxes(b: Viewport, vertical: bool, horizontal: bool): Viewport {
    var v := if vertical then b.(xmin := b.xmin - 1.0, xmax := b.xmax + 1.0) else b;
    if horizontal then v.(ymin := v.ymin - 1.0, ymax := v.ymax + 1.0) else v
  }

  /** The bounds before the correction. */
  function Folded(gs: seq<Graph>): Viewport {
    Fold(Seed(gs), Flatten(gs))
  }

  /** The bounds auto mode computes. */
  function AutoViewport(gs: seq<Graph>): Viewport {
    Widen(Folded(gs), Flatten(gs))
  }

  // ----- Flatten -----

  lemma {:induction false} FlattenPrefix(gs: seq<Graph>, i: nat, j: nat)
    requires i <= j <= |gs|
    ensures Flatten(gs[..i]) <= Flatten(gs[..j])
    decreases j
  {
    if i < j {
      FlattenPrefix(gs, i, j - 1);
      assert gs[..j][..j - 1] == gs[..j - 1];
    } else {
      assert gs[..i] == gs[..j];
    }
  }

  /** Every point of every graph is among the flattened points. */
  lemma {:induction false} FlattenHas(gs: seq<Graph>, i: nat, k: nat)
    requires i < |gs| && k < |gs[i].polyline.points|
    ensures gs[i].polyline.points[k] in Flatten(gs)
    decreases |gs|
  {
    if i < |gs| - 1 {
      FlattenHas(gs[..|gs| - 1], i, k);
    }
  }

  /** The flattened points are all empty exactly when every graph is. */
  lemma {:induction false} FlattenEmpty(gs: seq<Graph>)
    ensures |Flatten(gs)| == 0 <==> forall i :: 0 <= i < |gs| ==> |gs[i].polyline.points| == 0
    decreases |gs|
  {
    if |gs| > 0 {
      FlattenEmpty(gs[..|gs| - 1]);
      assert forall i :: 0 <= i < |gs| - 1 ==> gs[..|gs| - 1][i] == gs[i];
    }
  }

  // ----- the fold -----

  /** The fold only widens its start and covers every point it has seen. */
  lemma {:induction false} FoldContains(b: Viewport, pts: seq<Point>)
    ensures var r := Fold(b, pts);
      r.xmin <= b.xmin && b.xmax <= r.xmax && r.ymin <= b.ymin && b.ymax <= r.ymax &&
      forall k :: 0 <= k < |pts| ==> Contains(r, pts[k])
    decreases |pts|
  {
    if |pts| > 0 {
      var init := pts[..|pts| - 1];
      FoldContains(b, init);
      assert forall k :: 0 <= k < |pts| - 1 ==> pts[k] == init[k];
    }
  }

  /** After the fold every point of every graph lies inside the bounds. */
  lemma FoldedContainsAll(gs: seq<Graph>)
    ensures forall i, k :: 0 <= i < |gs| && 0 <= k < |gs[i].polyline.points| ==>
      Contains(Folded(gs), gs[i].polyline.points[k])
  {
    var pts := Flatten(gs);
    FoldContains(Seed(gs), pts);
    forall i, k | 0 <= i < |gs| && 0 <= k < |gs[i].polyline.points|
      ensures Contains(Folded(gs), gs[i].polyline.points[k])
    {
      FlattenHas(gs, i, k);
    }
  }

  /** The smallest x among the points (a reference definition, independent of the fold). */
  function MinX(pts: seq<Point>): (r: real)
    requires |pts| > 0
    ensures forall k :: 0 <= k < |pts| ==> r <= pts[k].x
    decreases |pts|
  {
    if |pts| == 1 then pts[0].x
    else
      var init := pts[..|pts| - 1];
      assert forall k :: 0 <= k < |init| ==> init[k] == pts[k];
      Min(MinX(init), pts[|pts| - 1].x)
  }

  /** The largest x among the points. */
  function MaxX(pts: seq<Point>): (r: real)
    requires |pts| > 0
    ensures forall k :: 0 <= k < |pts| ==> pts[k].x <= r
    decreases |pts|
  {
    if |pts| == 1 then pts[0].x
    else
      var init := pts[..|pts| - 1];
      assert forall k :: 0 <= k < |init| ==> init[k] == pts[k];
      Max(MaxX(init), pts[|pts| - 1].x)
  }

  /** The smallest y among the points. */
  function MinY(pts: seq<Point>): (r: real)
    requires |pts| > 0
    ensures forall k :: 0 <= k < |pts| ==> r <= pts[k].y
    decreases |pts|
  {
    if |pts| == 1 then pts[0].y
    else
      var init := pts[..|pts| - 1];
      assert forall k :: 0 <= k < |init| ==> init[k] == pts[k];
      Min(MinY(init), pts[|pts| - 1].y)
  }

  /** The largest y among the points. */
  function MaxY(pts: seq<Point>): (r: real)
    requires |pts| > 0
    ensures forall k :: 0 <= k < |pts| ==> pts[k].y <= r
    decreases |pts|
  {
    if |pts| == 1 then pts[0].y
    else
      var init := pts[..|pts| - 1];
      assert forall k :: 0 <= k < |init| ==> init[k] == pts[k];
      Max(MaxY(init), pts[|pts| - 1].y)
  }

  /** Each extreme is attained: it is the coordinate of the point at the returned index. */
  lemma {:induction false} ExtentAttained(pts: seq<Point>) returns (iMinX: nat, iMaxX: nat, iMinY: nat, iMaxY: nat)
    requires |pts| > 0
    ensures iMinX < |pts| && pts[iMinX].x == MinX(pts)
    ensures iMaxX < |pts| && pts[iMaxX].x == MaxX(pts)
    ensures iMinY < |pts| && pts[iMinY].y == MinY(pts)
    ensures iMaxY < |pts| && pts[iMaxY].y == MaxY(pts)
    decreases |pts|
  {
    if |pts| == 1 {
      return 0, 0, 0, 0;
    }
    var init, last := pts[..|pts| - 1], |pts| - 1;
    iMinX, iMaxX, iMinY, iMaxY := ExtentAttained(init);
    assert pts[iMinX] == init[iMinX] && pts[iMaxX] == init[iMaxX];
    assert pts[iMinY] == init[iMinY] && pts[iMaxY] == init[iMaxY];
    if pts[last].x < MinX(init) { iMinX := last; }
    if pts[last].x > MaxX(init) { iMaxX := last; }
    if pts[last].y < MinY(init) { iMinY := last; }
    if pts[last].y > MaxY(init) { iMaxY := last; }
  }

  /** The box of a single point. */
  function PointBox(p: Point): Viewport {
    Viewport(p.x, p.x, p.y, p.y)
  }

  /** Folding from the box of the first point gives the exact extent of the points. */
  lemma {:induction false} FoldIsExtent(pts: seq<Point>)
    requires |pts| > 0
    ensures Fold(PointBox(pts[0]), pts) == Viewport(MinX(pts), MaxX(pts), MinY(pts), MaxY(pts))
    decreases |pts|
  {
    if |pts| == 1 {
      assert pts[..0] == [];
    } else {
      var init := pts[..|pts| - 1];
      assert init[0] == pts[0];
      FoldIsExtent(init);
    }
  }

  /** The first flattened point is the first point of the first graph, when it has one. */
  lemma {:induction false} FlattenFirst(gs: seq<Graph>)
    requires |gs| > 0 && |gs[0].polyline.points| > 0
    ensures |Flatten(gs)| > 0 && Flatten(gs)[0] == gs[0].polyline.points[0]
    decreases |gs|
  {
    if |gs| > 1 {
      FlattenFirst(gs[..|gs| - 1]);
    } else {
      assert gs[..0] == [];
    }
  }

  /** When the first graph has points, the folded bounds are exact: the smallest
      and largest coordinates over all points. */
  lemma {:induction false} FoldedExact(gs: seq<Graph>)
    requires |gs| > 0 && |gs[0].polyline.points| > 0
    ensures var pts := Flatten(gs);
      |pts| > 0 && Folded(gs) == Viewport(MinX(pts), MaxX(pts), MinY(pts), MaxY(pts))
  {
    FlattenFirst(gs);
    assert Seed(gs) == PointBox(Flatten(gs)[0]);
    FoldIsExtent(Flatten(gs));
  }

  /** When there are no graphs or the first graph is empty, the fold starts at
      the origin, which therefore stays inside the bounds. */
  lemma FoldedHasOrigin(gs: seq<Graph>)
    requires |gs| == 0 || |gs[0].polyline.points| == 0
    ensures Contains(Folded(gs), Point(0.0, 0.0))
  {
    FoldContains(Seed(gs), Flatten(gs));
  }

  /** The correction fires on an axis exactly when the folded bounds are flat on it. */
  lemma LineIffFlat(gs: seq<Graph>)
    ensures IsVerticalLine(Flatten(gs), Folded(gs)) <==> Folded(gs).xmin == Folded(gs).xmax
    ensures IsHorizontalLine(Flatten(gs), Folded(gs)) <==> Folded(gs).ymin == Folded(gs).ymax
  {
    var pts, f := Flatten(gs), Folded(gs);
    FoldContains(Seed(gs), pts);
    if |pts| == 0 {
      FlattenEmpty(gs);
      assert f == Seed(gs);
    } else {
      assert pts[0].x == f.xmin && pts[0].x == f.xmax ==> f.xmin == f.xmax;
      assert pts[0].y == f.ymin && pts[0].y == f.ymax ==> f.ymin == f.ymax;
    }
  }

  /** Auto bounds: every point is inside, and neither span is ever zero. */
  lemma AutoViewportSound(gs: seq<Graph>)
    ensures var v := AutoViewport(gs);
      v.xmin < v.xmax && v.ymin < v.ymax &&
      forall i, k :: 0 <= i < |gs| && 0 <= k < |gs[i].polyline.points| ==>
        Contains(v, gs[i].polyline.points[k])
  {
    FoldedContainsAll(gs);
    LineIffFlat(gs);
    FoldContains(Seed(gs), Flatten(gs));
  }

  /** The exact effect of the correction: an axis grows by 1 on each side iff it was flat. */
  lemma AutoViewportWidening(gs: seq<Graph>)
    ensures var f, v := Folded(gs), AutoViewport(gs);
      (f.xmin == f.xmax ==> v.xmin == f.xmin - 1.0 && v.xmax == f.xmax + 1.0) &&
      (f.xmin != f.xmax ==> v.xmin == f.xmin && v.xmax == f.xmax) &&
      (f.ymin == f.ymax ==> v.ymin == f.ymin - 1.0 && v.ymax == f.ymax + 1.0) &&
      (f.ymin != f.ymax ==> v.ymin == f.ymin && v.ymax == f.ymax)
  {
    LineIffFlat(gs);
  }

  // ----- worked cases -----

  /** No points at all: [-1,1] x [-1,1], not all zeros. */
  lemma NoPointsViewport(gs: seq<Graph>)
    requires forall i :: 0 <= i < |gs| ==> |gs[i].polyline.points| == 0
    ensures AutoViewport(gs) == Viewport(-1.0, 1.0, -1.0, 1.0)
  {
    FlattenEmpty(gs);
  }

  /** The single point (5,5) gives [4,6] x [4,6]. */
  lemma SinglePointViewport(pl: Polyline, name: string)
    requires pl.points == [Point(5.0, 5.0)]
    ensures AutoViewport([Graph(name, pl)]) == Viewport(4.0, 6.0, 4.0, 6.0)
  {
    var gs := [Graph(name, pl)];
    assert gs[..0] == [];
    assert Flatten(gs) == [Point(5.0, 5.0)];
    assert Flatten(gs)[..0] == [];
    assert Seed(gs) == Viewport(5.0, 5.0, 5.0, 5.0);
    assert Fold(Seed(gs), Flatten(gs)) == Include(Fold(Seed(gs), []), Point(5.0, 5.0));
    assert Folded(gs) == Viewport(5.0, 5.0, 5.0, 5.0);
    AutoViewportWidening(gs);
  }

  /** An empty first graph keeps the origin: the point (5,5) in a second graph gives [0,5] x [0,5]. */
  lemma EmptyFirstGraphViewport(first: Graph, second: Graph)
    requires first.polyline.points == [] && second.polyline.points == [Point(5.0, 5.0)]
    ensures AutoViewport([first, second]) == Viewport(0.0, 5.0, 0.0, 5.0)
  {
    var gs := [first, second];
    assert gs[..1] == [first];
    assert [first][..0] == [];
    assert Flatten([first]) == [];
    assert Flatten(gs) == [Point(5.0, 5.0)];
    assert Flatten(gs)[..0] == [];
    assert Seed(gs) == Viewport(0.0, 0.0, 0.0, 0.0);
    assert Fold(Seed(gs), Flatten(gs)) == Include(Fold(Seed(gs), []), Point(5.0, 5.0));
    assert Folded(gs) == Viewport(0.0, 5.0, 0.0, 5.0);
    AutoViewportWidening(gs);
  }
}

=== FILE: canvas_map.dfy ===
/**
 * The map from data space to canvas space: linear on each axis, with the
 * vertical axis turned over because canvas y grows downwards.
 */
module CanvasMap {
  import opened GraphModel
  import opened Bounds

  /** Neither span of the viewport is zero, so the map divides by nonzero amounts. */
  predicate Mappable(v: Viewport) {
    v.xmax != v.xmin && v.ymax != v.ymin
  }

  /** Turns the ordinate over: y becomes canvasHeight - y, x is kept. */
  function FlipY(p: Point, canvasHeight: real): (r: Point)
    ensures r.x == p.x && r.y + p.y == canvasHeight
  {
    Point(p.x, canvasHeight - p.y)
  }

  /** One axis of the map: the fraction of [lo, hi] at which a lies, times the length w. */
  function Linear(a: real, lo: real, hi: real, w: real): real
    requires lo != hi
  {
    (a - lo) / (hi - lo) * w
  }

  /** The position of p inside the viewport, scaled to the canvas, before the flip. */
  function Scale(p: Point, v: Viewport, canvasWidth: real, canvasHeight: real): Point
    requires Mappable(v)
  {
    Point(Linear(p.x, v.xmin, v.xmax, canvasWidth), Linear(p.y, v.ymin, v.ymax, canvasHeight))
  }

  /** Data space to canvas space. */
  function ToCanvas(p: Point, v: Viewport, canvasWidth: real, canvasHeight: real): Point
    requires Mappable(v)
  {
    FlipY(Scale(p, v, canvasWidth, canvasHeight), canvasHeight)
  }

  /** Canvas space back to data space: the inverse of ToCanvas on a canvas of nonzero size. */
  function FromCanvas(c: Point, v: Viewport, canvasWidth: real, canvasHeight: real): Point
    requires canvasWidth != 0.0 && canvasHeight != 0.0
  {
    Point(v.xmin + c.x / canvasWidth * (v.xmax - v.xmin),
          v.ymin + (canvasHeight - c.y) / canvasHeight * (v.ymax - v.ymin))
  }

  lemma FlipYInvolution(p: Point, canvasHeight: real)
    ensures FlipY(FlipY(p, canvasHeight), canvasHeight) == p
  {
  }

  /** One axis sends lo to 0 and hi to w. */
  lemma LinearEnds(lo: real, hi: real, w: real)
    requires lo != hi
    ensures Linear(lo, lo, hi, w) == 0.0 && Linear(hi, lo, hi, w) == w
  {
    assert (hi - lo) / (hi - lo) == 1.0;
  }

  /** A strictly increasing linear step. */
  lemma LinearMonotone(a: real, b: real, lo: real, hi: real, w: real)
    requires lo < hi && w > 0.0 && a < b
    ensures Linear(a, lo, hi, w) < Linear(b, lo, hi, w)
  {
    var s := hi - lo;
    assert (a - lo) / s < (b - lo) / s by {
      assert (b - lo) / s - (a - lo) / s == (b - a) / s;
    }
  }

  /** A point of [lo, hi] lands in [0, w]. */
  lemma LinearInside(a: real, lo: real, hi: real, w: real)
    requires lo < hi && w >= 0.0 && lo <= a <= hi
    ensures 0.0 <= Linear(a, lo, hi, w) <= w
  {
    var s := hi - lo;
    var t := (a - lo) / s;
    assert 0.0 <= t <= 1.0 by {
      assert t * s == a - lo;
    }
    assert t * w <= 1.0 * w;
    assert Linear(a, lo, hi, w) == t * w;
  }

  /** The corners of the viewport go to the corners of the canvas, y turned over:
      (xmin, ymin) is the bottom-left corner (0, H), (xmax, ymax) the top-right (W, 0). */
  lemma ToCanvasCorners(v: Viewport, canvasWidth: real, canvasHeight: real)
    requires Mappable(v)
    ensures ToCanvas(Point(v.xmin, v.ymin), v, canvasWidth, canvasHeight) == Point(0.0, canvasHeight)
    ensures ToCanvas(Point(v.xmax, v.ymax), v, canvasWidth, canvasHeight) == Point(canvasWidth, 0.0)
    ensures ToCanvas(Point(v.xmin, v.ymax), v, canvasWidth, canvasHeight) == Point(0.0, 0.0)
    ensures ToCanvas(Point(v.xmax, v.ymin), v, canvasWidth, canvasHeight) == Point(canvasWidth, canvasHeight)
  {
    LinearEnds(v.xmin, v.xmax, canvasWidth);
    LinearEnds(v.ymin, v.ymax, canvasHeight);
  }

  /** Canvas x grows with data x; canvas y falls as data y grows. */
  lemma ToCanvasMonotone(p: Point, q: Point, v: Viewport, canvasWidth: real, canvasHeight: real)
    requires v.xmin < v.xmax && v.ymin < v.ymax && canvasWidth > 0.0 && canvasHeight > 0.0
    ensures p.x < q.x ==> ToCanvas(p, v, canvasWidth, canvasHeight).x < ToCanvas(q, v, canvasWidth, canvasHeight).x
    ensures p.y < q.y ==> ToCanvas(p, v, canvasWidth, canvasHeight).y > ToCanvas(q, v, canvasWidth, canvasHeight).y
  {
    if p.x < q.x {
      LinearMonotone(p.x, q.x, v.xmin, v.xmax, canvasWidth);
    }
    if p.y < q.y {
      LinearMonotone(p.y, q.y, v.ymin, v.ymax, canvasHeight);
    }
  }

  /** A point inside the viewport lands on the canvas. */
  lemma ToCanvasInside(p: Point, v: Viewport, canvasWidth: real, canvasHeight: real)
    requires v.xmin < v.xmax && v.ymin < v.ymax && canvasWidth >= 0.0 && canvasHeight >= 0.0
    requires Contains(v, p)
    ensures var c := ToCanvas(p, v, canvasWidth, canvasHeight);
      0.0 <= c.x <= canvasWidth && 0.0 <= c.y <= canvasHeight
  {
    LinearInside(p.x, v.xmin, v.xmax, canvasWidth);
    LinearInside(p.y, v.ymin, v.ymax, canvasHeight);
  }

  /** FromCanvas undoes ToCanvas. */
  lemma ToCanvasRoundTrip(p: Point, v: Viewport, canvasWidth: real, canvasHeight: real)
    requires Mappable(v) && canvasWidth != 0.0 && canvasHeight != 0.0
    ensures FromCanvas(ToCanvas(p, v, canvasWidth, canvasHeight), v, canvasWidth, canvasHeight) == p
  {
    var c := ToCanvas(p, v, canvasWidth, canvasHeight);
    var sx, sy := v.xmax - v.xmin, v.ymax - v.ymin;
    var tx, ty := (p.x - v.xmin) / sx, (p.y - v.ymin) / sy;
    assert c.x / canvasWidth == tx;
    assert (canvasHeight - c.y) / canvasHeight == ty;
    assert tx * sx == p.x - v.xmin;
    assert ty * sy == p.y - v.ymin;
  }

  /** ToCanvas undoes FromCanvas, so the map is a bijection between the planes. */
  lemma FromCanvasRoundTrip(c: Point, v: Viewport, canvasWidth: real, canvasHeight: real)
    requires Mappable(v) && canvasWidth != 0.0 && canvasHeight != 0.0
    ensures ToCanvas(FromCanvas(c, v, canvasWidth, canvasHeight), v, canvasWidth, canvasHeight) == c
  {
    var p := FromCanvas(c, v, canvasWidth, canvasHeight);
    var sx, sy := v.xmax - v.xmin, v.ymax - v.ymin;
    var tx, ty := c.x / canvasWidth, (canvasHeight - c.y) / canvasHeight;
    assert (p.x - v.xmin) / sx == tx;
    assert (p.y - v.ymin) / sy == ty;
    assert tx * canvasWidth == c.x;
    assert ty * canvasHeight == canvasHeight - c.y;
  }
}

=== FILE: graph.dfy ===
/**
 * The data that a plot holds: points, polylines and named graphs.
 * A WPF Polyline is a reference object; here it is a value, so a graph's
 * point list is "mutated" by replacing the graph with one that differs
 * only in its points.
 */
module GraphModel {
  import opened Wrappers

  /** A point in data space or canvas space (a WPF Point, doubles as reals). */
  datatype Point = Point(x: real, y: real)

  /** A solid colour brush, identified by its ARGB value. */
  datatype Brush = SolidColorBrush(argb: bv32)

  /** The parts of a WPF Polyline the plot uses: its points, stroke and stroke thickness. */
  datatype Polyline = Polyline(points: seq<Point>, stroke: Option<Brush>, thickness: real)

  /** A graph: a name (possibly empty, not unique) and its polyline. */
  datatype Graph = Graph(name: string, polyline: Polyline)

  /** A freshly created WPF Polyline: no points, no stroke, thickness 1. */
  function NewPolyline(): (p: Polyline)
    ensures p.points == [] && p.stroke == None && p.thickness == 1.0
  {
    Polyline([], None, 1.0)
  }

  /** The parameterless constructor: an empty name and a new, empty polyline. */
  function NewGraph(): (g: Graph)
    ensures g.name == "" && g.polyline == NewPolyline()
    ensures g.polyline.points == []
  {
    Graph("", NewPolyline())
  }

  /** The only change a graph ever sees after construction: its polyline's point
      list is replaced; the name, the stroke and the thickness are the ones it was built with. */
  function WithPoints(g: Graph, pts: seq<Point>): (r: Graph)
    ensures r.name == g.name && r.polyline.points == pts
    ensures r.polyline.stroke == g.polyline.stroke && r.polyline.thickness == g.polyline.thickness
  {
    Graph(g.name, g.polyline.(points := pts))
  }
}

=== FILE: grid.dfy ===
/**
 * The adaptive grid of a plot: how many cells each axis is cut into, the tick
 * values written along the axes, and the grid lines drawn between the cells.
 */
module Grid {
  import opened Bounds

  /** 1, 2, 4, 8, ... */
  predicate IsPowerOfTwo(n: int)
    decreases if n > 0 then n else 0
  {
    n == 1 || (n > 1 && n % 2 == 0 && IsPowerOfTwo(n / 2))
  }

  /** The number of cells per axis and the size of one cell, in canvas units. */
  datatype GridLayout = GridLayout(nX: int, nY: int, sizeX: real, sizeY: real)

  /** The outcome the halving loop settles on for one axis of length len: n is a
      power of two, a cell is len / n, halving a cell once more would make it
      smaller than minCell, and a cell that was halved at all is at least minCell. */
  predicate Settled(len: real, minCell: int, n: int, size: real) {
    && IsPowerOfTwo(n)
    && size == len / n as real
    && size / 2.0 < minCell as real
    && (n > 1 ==> size >= minCell as real)
  }

  /** How many more doublings of n the axis could still take (a termination measure). */
  function Room(len: real, minCell: int, n: int): int
    requires minCell > 0
  {
    (len / minCell as real).Floor + 1 - n
  }

  lemma {:induction false} PowerOfTwoPositive(n: int)
    requires IsPowerOfTwo(n)
    ensures n >= 1
  {
  }

  lemma PowerOfTwoDouble(n: int)
    requires IsPowerOfTwo(n)
    ensures IsPowerOfTwo(2 * n)
  {
    assert (2 * n) / 2 == n;
  }

  /** Between a power of two and its double there is no other power of two. */
  lemma {:induction false} PowerOfTwoGap(k: int, n: int)
    requires IsPowerOfTwo(k) && IsPowerOfTwo(n) && k < 2 * n
    ensures k <= n
    decreases n
  {
    if n > 1 && k > 1 {
      PowerOfTwoGap(k / 2, n / 2);
    }
  }

  /** A cell that can be halved once more leaves room for the doubled count. */
  lemma DoublingRoom(len: real, minCell: int, n: int)
    requires minCell > 0 && n >= 1
    requires len / n as real / 2.0 >= minCell as real
    ensures 2 * n <= (len / minCell as real).Floor
  {
    var m, nn := minCell as real, n as real;
    var size := len / nn;
    assert size * nn == len;
    assert (2.0 * nn) * m <= (2.0 * nn) * (size / 2.0);
    assert (2.0 * nn) * m <= len;
    assert (2 * n) as real <= len / m;
  }

  /** What holds of one axis at the top of every round of the halving loop. */
  predicate Halving(len: real, minCell: int, n: int, size: real)
    requires minCell > 0
  {
    && IsPowerOfTwo(n)
    && size == len / n as real
    && (n > 1 ==> size >= minCell as real)
    && Room(len, minCell, n) >= 0
  }

  /** Halving the cell and doubling the count keeps the round invariant and uses up room. */
  lemma HalveStep(len: real, minCell: int, n: int, size: real)
    requires minCell > 0 && Halving(len, minCell, n, size)
    requires size / 2.0 >= minCell as real
    ensures Halving(len, minCell, 2 * n, size / 2.0)
    ensures Room(len, minCell, 2 * n) < Room(len, minCell, n)
  {
    PowerOfTwoPositive(n);
    DoublingRoom(len, minCell, n);
    PowerOfTwoDouble(n);
    assert size / 2.0 == len / (2 * n) as real;
  }

  /** An axis whose cell cannot be halved again has settled. */
  lemma HalveStop(len: real, minCell: int, n: int, size: real)
    requires minCell > 0 && Halving(len, minCell, n, size)
    requires size / 2.0 < minCell as real
    ensures Settled(len, minCell, n, size)
  {
  }

  /** Both axes start as one cell the size of the canvas. */
  lemma HalveStart(len: real, minCell: int)
    requires minCell > 0 && len >= 0.0
    ensures Halving(len, minCell, 1, len)
  {
    assert len / minCell as real >= 0.0;
  }

  /**
   * The halving loop of UpdateAxises: both axes start as one cell the size of the
   * canvas; on every round each axis whose cell can be halved without going
   * under the minimum is halved and its count doubled; the loop stops on the
   * first round in which neither axis was halved.
   */
  method ComputeGrid(canvasWidth: real, canvasHeight: real, gridMinWidth: int, gridMinHeight: int)
    returns (g: GridLayout)
    requires canvasWidth >= 0.0 && canvasHeight >= 0.0
    requires gridMinWidth > 0 && gridMinHeight > 0
    ensures Settled(canvasWidth, gridMinWidth, g.nX, g.sizeX)
    ensures Settled(canvasHeight, gridMinHeight, g.nY, g.sizeY)
  {
    var sizeX, sizeY := canvasWidth, canvasHeight;
    var nX, nY := 1, 1;
    HalveStart(canvasWidth, gridMinWidth);
    HalveStart(canvasHeight, gridMinHeight);
    while true
      invariant Halving(canvasWidth, gridMinWidth, nX, sizeX)
      invariant Halving(canvasHeight, gridMinHeight, nY, sizeY)
      decreases Room(canvasWidth, gridMinWidth, nX) + Room(canvasHeight, gridMinHeight, nY)
    {
      var isX, isY := false, false;
      if sizeX / 2.0 >= gridMinWidth as real {
        HalveStep(canvasWidth, gridMinWidth, nX, sizeX);
        sizeX, nX := sizeX / 2.0, nX * 2;
      } else {
        isX := true;
        HalveStop(canvasWidth, gridMinWidth, nX, sizeX);
      }
      if sizeY / 2.0 >= gridMinHeight as real {
        HalveStep(canvasHeight, gridMinHeight, nY, sizeY);
        sizeY, nY := sizeY / 2.0, nY * 2;
      } else {
        isY := true;
        HalveStop(canvasHeight, gridMinHeight, nY, sizeY);
      }
      if isX && isY {
        break;
      }
    }
    g := GridLayout(nX, nY, sizeX, sizeY);
  }

  /** Half a cell of an n-cell axis is a cell of the 2n-cell axis. */
  lemma HalfCell(len: real, n: int)
    requires n >= 1
    ensures len / n as real / 2.0 == len / (2 * n) as real
  {
  }

  /** A smaller quotient of a non-negative length means a larger divisor. */
  lemma DivOrder(len: real, a: real, b: real)
    requires len >= 0.0 && a > 0.0 && b > 0.0 && len / b < len / a
    ensures a < b
  {
    var q, r := len / a, len / b;
    assert q * a == len && r * b == len;
    assert len > 0.0;
    assert r > 0.0;
    assert (q - r) * a > 0.0;
    assert r * (b - a) == (q - r) * a;
  }

  /** The count the loop settles on is the largest power of two whose cell is
      still at least the minimum. */
  lemma SettledIsLargest(len: real, minCell: int, n: int, size: real, k: int)
    requires len >= 0.0 && minCell > 0
    requires Settled(len, minCell, n, size)
    requires IsPowerOfTwo(k) && len / k as real >= minCell as real
    ensures k <= n
  {
    PowerOfTwoPositive(n);
    PowerOfTwoPositive(k);
    HalfCell(len, n);
    DivOrder(len, k as real, (2 * n) as real);
    PowerOfTwoGap(k, n);
  }

  /** So the loop's outcome is determined by the axis length and the minimum cell. */
  lemma SettledUnique(len: real, minCell: int, n1: int, size1: real, n2: int, size2: real)
    requires len >= 0.0 && minCell > 0
    requires Settled(len, minCell, n1, size1) && Settled(len, minCell, n2, size2)
    ensures n1 == n2 && size1 == size2
  {
    if n2 > 1 {
      SettledIsLargest(len, minCell, n1, size1, n2);
    }
    if n1 > 1 {
      SettledIsLargest(len, minCell, n2, size2, n1);
    }
    PowerOfTwoPositive(n1);
    PowerOfTwoPositive(n2);
  }

  /** A 256 x 128 canvas with 60 x 60 minimum cells is cut 4 x 2, into 64 x 64 cells. */
  lemma Grid256By128(g: GridLayout)
    requires Settled(256.0, 60, g.nX, g.sizeX) && Settled(128.0, 60, g.nY, g.sizeY)
    ensures g == GridLayout(4, 2, 64.0, 64.0)
  {
    assert IsPowerOfTwo(2);
    assert IsPowerOfTwo(4);
    SettledUnique(256.0, 60, g.nX, g.sizeX, 4, 64.0);
    SettledUnique(128.0, 60, g.nY, g.sizeY, 2, 64.0);
  }

  // ----- tick values -----

  /** The value at the i-th column boundary: Xmin + (Xmax - Xmin) / nX * i. */
  function XTick(v: Viewport, nX: int, i: int): real
    requires nX > 0
  {
    v.xmin + (v.xmax - v.xmin) / nX as real * i as real
  }

  /** The value at the j-th row boundary, counted from the top: Ymax - j * (Ymax - Ymin) / nY. */
  function YTick(v: Viewport, nY: int, j: int): real
    requires nY > 0
  {
    v.ymax - j as real * (v.ymax - v.ymin) / nY as real
  }

  /** The x tick values, left to right, for i = 0 .. nX. */
  function XTicks(v: Viewport, nX: int): seq<real>
    requires nX > 0
  {
    seq(nX + 1, i => XTick(v, nX, i))
  }

  /** The y tick values, top to bottom, for j = 0 .. nY. */
  function YTicks(v: Viewport, nY: int): seq<real>
    requires nY > 0
  {
    seq(nY + 1, j => YTick(v, nY, j))
  }

  lemma XTickStep(v: Viewport, nX: int, i: int)
    requires nX > 0
    ensures XTick(v, nX, i + 1) - XTick(v, nX, i) == (v.xmax - v.xmin) / nX as real
  {
    var step := (v.xmax - v.xmin) / nX as real;
    assert step * (i + 1) as real == step * i as real + step;
  }

  lemma YTickStep(v: Viewport, nY: int, j: int)
    requires nY > 0
    ensures YTick(v, nY, j) - YTick(v, nY, j + 1) == (v.ymax - v.ymin) / nY as real
  {
    var span, n := v.ymax - v.ymin, nY as real;
    assert (j + 1) as real * span == j as real * span + span;
    assert (j as real * span + span) / n == j as real * span / n + span / n;
  }

  lemma TickEnds(v: Viewport, nX: int, nY: int)
    requires nX > 0 && nY > 0
    ensures XTick(v, nX, 0) == v.xmin && XTick(v, nX, nX) == v.xmax
    ensures YTick(v, nY, 0) == v.ymax && YTick(v, nY, nY) == v.ymin
  {
    var step := (v.xmax - v.xmin) / nX as real;
    assert step * nX as real == v.xmax - v.xmin;
    var span, n := v.ymax - v.ymin, nY as real;
    assert n * span / n == span;
  }

  /** The x ticks run from Xmin to Xmax in equal steps of one cell's share of the span. */
  lemma XTicksShape(v: Viewport, nX: int)
    requires nX > 0
    ensures var t := XTicks(v, nX);
      |t| == nX + 1 && t[0] == v.xmin && t[nX] == v.xmax &&
      forall i :: 0 <= i < nX ==> t[i + 1] - t[i] == (v.xmax - v.xmin) / nX as real
  {
    var t := XTicks(v, nX);
    TickEnds(v, nX, 1);
    assert t[0] == XTick(v, nX, 0) && t[nX] == XTick(v, nX, nX);
    forall i | 0 <= i < nX
      ensures t[i + 1] - t[i] == (v.xmax - v.xmin) / nX as real
    {
      assert t[i + 1] == XTick(v, nX, i + 1) && t[i] == XTick(v, nX, i);
      XTickStep(v, nX, i);
    }
  }

  /** The y ticks run from Ymax down to Ymin in equal steps. */
  lemma YTicksShape(v: Viewport, nY: int)
    requires nY > 0
    ensures var t := YTicks(v, nY);
      |t| == nY + 1 && t[0] == v.ymax && t[nY] == v.ymin &&
      forall j :: 0 <= j < nY ==> t[j] - t[j + 1] == (v.ymax - v.ymin) / nY as real
  {
    var t := YTicks(v, nY);
    TickEnds(v, 1, nY);
    assert t[0] == YTick(v, nY, 0) && t[nY] == YTick(v, nY, nY);
    forall j | 0 <= j < nY
      ensures t[j] - t[j + 1] == (v.ymax - v.ymin) / nY as real
    {
      assert t[j + 1] == YTick(v, nY, j + 1) && t[j] == YTick(v, nY, j);
      YTickStep(v, nY, j);
    }
  }

  /** On a viewport with positive spans the x ticks strictly increase and the y ticks strictly decrease. */
  lemma TicksStrictlyOrdered(v: Viewport, nX: int, nY: int)
    requires nX > 0 && nY > 0 && v.xmin < v.xmax && v.ymin < v.ymax
    ensures forall i :: 0 <= i < nX ==> XTicks(v, nX)[i] < XTicks(v, nX)[i + 1]
    ensures forall j :: 0 <= j < nY ==> YTicks(v, nY)[j] > YTicks(v, nY)[j + 1]
  {
    XTicksShape(v, nX);
    YTicksShape(v, nY);
  }

  /**
   * The label loop of UpdateAxises, without the rounding and the text layout:
   * one x value per column boundary; the y values come from the inner loop,
   * which emits a value only while i == 0.
   */
  method TickValues(v: Viewport, nX: int, nY: int) returns (xs: seq<real>, ys: seq<real>)
    requires nX > 0 && nY > 0
    ensures xs == XTicks(v, nX) && ys == YTicks(v, nY)
    ensures |xs| == nX + 1 && xs[0] == v.xmin && xs[nX] == v.xmax
    ensures |ys| == nY + 1 && ys[0] == v.ymax && ys[nY] == v.ymin
  {
    ghost var tx, ty := XTicks(v, nX), YTicks(v, nY);
    xs, ys := [], [];
    for i := 0 to nX + 1
      invariant xs == tx[..i]
      invariant ys == if i == 0 then [] else ty
    {
      assert tx[..i + 1] == tx[..i] + [XTick(v, nX, i)];
      xs := xs + [XTick(v, nX, i)];
      for j := 0 to nY + 1
        invariant ys == if i == 0 then ty[..j] else ty
      {
        if i == 0 {
          assert ty[..j + 1] == ty[..j] + [YTick(v, nY, j)];
          ys := ys + [YTick(v, nY, j)];
        }
      }
      assert i == 0 ==> ty[..nY + 1] == ty;
    }
    assert tx[..nX + 1] == tx;
    XTicksShape(v, nX);
    YTicksShape(v, nY);
  }

  // ----- grid lines -----

  /** A line segment on the canvas. */
  datatype Line = Line(x1: real, y1: real, x2: real, y2: real)

  /** The line across the plot at row boundary y (sticks out 5 units to the left). */
  function AcrossLine(y: real, margin: real, canvasWidth: real): Line {
    Line(margin - 5.0, y, canvasWidth + margin, y)
  }

  /** The line down the plot at column boundary x (sticks out 5 units at the bottom). */
  function DownLine(x: real, margin: real, canvasHeight: real): Line {
    Line(x, margin, x, canvasHeight + margin + 5.0)
  }

  /** The lines the grid loop emits for rows 0 .. k - 1 of its outer index, as written:
      for each i an across-line at margin + i * sizeY (except i == 0), then the
      down-line at margin + i * sizeX once for every j in 1 .. nY - 1. */
  function LinesAsWritten(k: int, nY: int, sizeX: real, sizeY: real, margin: real,
                          canvasWidth: real, canvasHeight: real): seq<Line>
    requires k >= 0
    decreases k
  {
    if k == 0 then []
    else LinesAsWritten(k - 1, nY, sizeX, sizeY, margin, canvasWidth, canvasHeight)
         + RowAsWritten(k - 1, nY, sizeX, sizeY, margin, canvasWidth, canvasHeight)
  }

  function RowAsWritten(i: int, nY: int, sizeX: real, sizeY: real, margin: real,
                        canvasWidth: real, canvasHeight: real): seq<Line>
  {
    (if i != 0 then [AcrossLine(margin + i as real * sizeY, margin, canvasWidth)] else [])
    + seq(if nY > 1 then nY - 1 else 0, _ => DownLine(margin + i as real * sizeX, margin, canvasHeight))
  }

  /** The grid-line loops of UpdateAxises as the source has them. */
  method GridLinesAsWritten(nX: int, nY: int, sizeX: real, sizeY: real, margin: real,
                            canvasWidth: real, canvasHeight: real) returns (lines: seq<Line>)
    requires nX > 0 && nY > 0
    ensures lines == LinesAsWritten(nX, nY, sizeX, sizeY, margin, canvasWidth, canvasHeight)
  {
    lines := [];
    for i := 0 to nX
      invariant lines == LinesAsWritten(i, nY, sizeX, sizeY, margin, canvasWidth, canvasHeight)
    {
      ghost var before := lines;
      if i != 0 {
        lines := lines + [AcrossLine(margin + i as real * sizeY, margin, canvasWidth)];
      }
      ghost var head := lines;
      for j := 0 to nY
        invariant lines == head + seq(if j > 1 then j - 1 else 0, _ => DownLine(margin + i as real * sizeX, margin, canvasHeight))
      {
        if j != 0 {
          lines := lines + [DownLine(margin + i as real * sizeX, margin, canvasHeight)];
        }
      }
      assert lines == before + RowAsWritten(i, nY, sizeX, sizeY, margin, canvasWidth, canvasHeight);
    }
  }

  /** A 256 x 100 canvas with 60 x 60 minimum cells is cut 4 x 1. The loops as
      written then draw three across-lines at 100, 200 and 300 units below the
      top, none of them inside the 100-unit-high plot, and no down-line at all. */
  lemma LinesAsWrittenMisplaced(g: GridLayout, margin: real)
    requires Settled(256.0, 60, g.nX, g.sizeX) && Settled(100.0, 60, g.nY, g.sizeY)
    ensures g == GridLayout(4, 1, 64.0, 100.0)
    ensures var lines := LinesAsWritten(g.nX, g.nY, g.sizeX, g.sizeY, margin, 256.0, 100.0);
      lines == [AcrossLine(margin + 100.0, margin, 256.0), AcrossLine(margin + 200.0, margin, 256.0),
                AcrossLine(margin + 300.0, margin, 256.0)] &&
      forall k :: 0 <= k < |lines| ==> lines[k].y1 >= margin + 100.0
  {
    assert IsPowerOfTwo(4);
    SettledUnique(256.0, 60, g.nX, g.sizeX, 4, 64.0);
    SettledUnique(100.0, 60, g.nY, g.sizeY, 1, 100.0);
    var f := (i: int) => RowAsWritten(i, 1, 64.0, 100.0, margin, 256.0, 100.0);
    assert f(0) == [];
    assert f(1) == [AcrossLine(margin + 100.0, margin, 256.0)];
    assert f(2) == [AcrossLine(margin + 200.0, margin, 256.0)];
    assert f(3) == [AcrossLine(margin + 300.0, margin, 256.0)];
  }

  // ----- the halving loop with a minimum cell of zero or less -----

  /** The state of the halving loop after a round: the cells, the counts, and
      whether the round ended the loop (neither axis was halved). */
  datatype HalvingState = HalvingState(sizeX: real, sizeY: real, nX: int, nY: int, stopped: bool)

  /** A C# int: the value an unchecked 32-bit two's-complement result wraps to. */
  function Int32(v: int): (r: int)
    ensures -0x8000_0000 <= r < 0x8000_0000
    ensures (r - v) % 0x1_0000_0000 == 0
    ensures -0x8000_0000 <= v < 0x8000_0000 ==> r == v
  {
    (v + 0x8000_0000) % 0x1_0000_0000 - 0x8000_0000
  }

  /** One round of the loop, as written, for any minimum cell: an axis whose
      half cell is still at least its minimum is halved and its count doubled
      (a C# int, so the doubling wraps); any other axis is kept. The round ends
      the loop when neither axis was halved. */
  function HalvingRound(s: HalvingState, gridMinWidth: int, gridMinHeight: int): (r: HalvingState)
    ensures r.stopped <==> s.sizeX / 2.0 < gridMinWidth as real && s.sizeY / 2.0 < gridMinHeight as real
  {
    var (sizeX, nX, isX) :=
      if s.sizeX / 2.0 >= gridMinWidth as real then (s.sizeX / 2.0, Int32(s.nX * 2), false) else (s.sizeX, s.nX, true);
    var (sizeY, nY, isY) :=
      if s.sizeY / 2.0 >= gridMinHeight as real then (s.sizeY / 2.0, Int32(s.nY * 2), false) else (s.sizeY, s.nY, true);
    HalvingState(sizeX, sizeY, nX, nY, isX && isY)
  }

  /** The state after k rounds from the canvas-sized start, or earlier if the loop stopped. */
  function AfterRounds(k: nat, canvasWidth: real, canvasHeight: real, gridMinWidth: int, gridMinHeight: int): HalvingState
    decreases k
  {
    if k == 0 then HalvingState(canvasWidth, canvasHeight, 1, 1, false)
    else
      var s := AfterRounds(k - 1, canvasWidth, canvasHeight, gridMinWidth, gridMinHeight);
      if s.stopped then s else HalvingRound(s, gridMinWidth, gridMinHeight)
  }

  /** 2 to the power k. */
  function Pow2(k: nat): nat
    decreases k
  {
    if k == 0 then 1 else 2 * Pow2(k - 1)
  }

  /** Pow2 turns sums into products. */
  lemma {:induction false} Pow2Add(a: nat, b: nat)
    ensures Pow2(a + b) == Pow2(a) * Pow2(b)
    decreases a
  {
    if a > 0 {
      Pow2Add(a - 1, b);
    }
  }

  /** The powers at which an int count runs out. */
  lemma Pow2Limits()
    ensures Pow2(30) == 0x4000_0000 && Pow2(31) == 0x8000_0000 && Pow2(32) == 0x1_0000_0000
  {
    assert Pow2(2) == 4;
    Pow2Add(2, 2);
    Pow2Add(4, 4);
    Pow2Add(8, 8);
    Pow2Add(16, 16);
    Pow2Add(30, 2);
  }

  /** Doubling a wrapped value wraps like doubling the value itself. */
  lemma Int32Double(v: int)
    ensures Int32(2 * Int32(v)) == Int32(2 * v)
  {
    var a, r1, r2 := Int32(v), Int32(2 * Int32(v)), Int32(2 * v);
    var p, q1, q2 := (a - v) / 0x1_0000_0000, (r1 - 2 * a) / 0x1_0000_0000, (r2 - 2 * v) / 0x1_0000_0000;
    assert a - v == 0x1_0000_0000 * p;
    assert r1 - 2 * a == 0x1_0000_0000 * q1;
    assert r2 - 2 * v == 0x1_0000_0000 * q2;
    assert r1 - r2 == 0x1_0000_0000 * (q1 + 2 * p - q2);
  }

  /** Up to 2^30, a power of two fits in an int. */
  lemma Int32Pow2Small(k: nat)
    requires k <= 30
    ensures Int32(Pow2(k)) == Pow2(k)
  {
    Pow2Limits();
    Pow2Add(k, 30 - k);
    assert Pow2(k) <= Pow2(k) * Pow2(30 - k);
  }

  /** From 2^32 on, a power of two wraps to 0. */
  lemma Int32Pow2Large(k: nat)
    requires k >= 32
    ensures Int32(Pow2(k)) == 0
  {
    Pow2Limits();
    Pow2Add(32, k - 32);
    var m := Pow2(k - 32);
    assert Pow2(k) == 0x1_0000_0000 * m;
    assert (0x1_0000_0000 * m + 0x8000_0000) % 0x1_0000_0000 == 0x8000_0000;
  }

  /** With a minimum cell width of zero or less the x cell can always be halved,
      so no round ever stops the loop: after every number of rounds it is still
      running. The column count is 2^k wrapped to an int: exact up to 30 rounds,
      int.MinValue after 31, and 0 from round 32 on. The loop as written does
      not terminate. */
  lemma {:induction false} NonPositiveMinimumNeverStops(k: nat, canvasWidth: real, canvasHeight: real,
                                                         gridMinWidth: int, gridMinHeight: int)
    requires canvasWidth >= 0.0 && gridMinWidth <= 0
    ensures var s := AfterRounds(k, canvasWidth, canvasHeight, gridMinWidth, gridMinHeight);
      && !s.stopped && s.sizeX >= 0.0 && s.nX == Int32(Pow2(k))
      && (k <= 30 ==> s.nX == Pow2(k))
      && (k == 31 ==> s.nX == -0x8000_0000)
      && (k >= 32 ==> s.nX == 0)
    decreases k
  {
    if k > 0 {
      NonPositiveMinimumNeverStops(k - 1, canvasWidth, canvasHeight, gridMinWidth, gridMinHeight);
      Int32Double(Pow2(k - 1));
    }
    if k <= 30 {
      Int32Pow2Small(k);
    } else if k == 31 {
      Pow2Limits();
    } else {
      Int32Pow2Large(k);
    }
  }

  /** The offset of the k-th cell boundary from the plot's edge, for cells of the given size. */
  function Boundary(margin: real, k: int, size: real): real {
    margin + k as real * size
  }

  /** The grid the plot is meant to have: one down-line at each inner column
      boundary and one across-line at each inner row boundary, each once. */
  function GridLines(nX: int, nY: int, sizeX: real, sizeY: real, margin: real,
                     canvasWidth: real, canvasHeight: real): seq<Line>
    requires nX > 0 && nY > 0
  {
    seq(nX - 1, i => DownLine(Boundary(margin, i + 1, sizeX), margin, canvasHeight))
    + seq(nY - 1, j => AcrossLine(Boundary(margin, j + 1, sizeY), margin, canvasWidth))
  }

  /** An inner boundary k of n cells of a positive size lies strictly inside the axis. */
  lemma InnerBoundary(margin: real, k: int, n: int, size: real)
    requires 0 < k < n && size > 0.0
    ensures margin < Boundary(margin, k, size) < margin + size * n as real
  {
    assert size * n as real == k as real * size + (n - k) as real * size;
  }

  /** Consecutive boundaries are one cell apart. */
  lemma BoundaryStep(margin: real, k: int, size: real)
    ensures Boundary(margin, k + 1, size) == Boundary(margin, k, size) + size
  {
    assert (k + 1) as real * size == k as real * size + size;
  }

  /** With the cells of the grid loop, the corrected lines are exactly the nX - 1
      inner column boundaries, left to right, followed by the nY - 1 inner row
      boundaries, top to bottom: each boundary once, and all strictly inside the plot. */
  lemma GridLinesInside(nX: int, nY: int, sizeX: real, sizeY: real, margin: real,
                        canvasWidth: real, canvasHeight: real)
    requires nX > 0 && nY > 0 && sizeX > 0.0 && sizeY > 0.0
    requires sizeX * nX as real == canvasWidth && sizeY * nY as real == canvasHeight
    ensures var lines := GridLines(nX, nY, sizeX, sizeY, margin, canvasWidth, canvasHeight);
      |lines| == (nX - 1) + (nY - 1) &&
      (forall k :: 0 <= k < nX - 1 ==>
         lines[k] == DownLine(Boundary(margin, k + 1, sizeX), margin, canvasHeight) &&
         margin < lines[k].x1 < margin + canvasWidth) &&
      (forall k :: nX - 1 <= k < |lines| ==>
         lines[k] == AcrossLine(Boundary(margin, k - (nX - 1) + 1, sizeY), margin, canvasWidth) &&
         margin < lines[k].y1 < margin + canvasHeight) &&
      (forall k :: 0 <= k < nX - 2 ==> lines[k].x1 < lines[k + 1].x1) &&
      (forall k :: nX - 1 <= k < |lines| - 1 ==> lines[k].y1 < lines[k + 1].y1)
  {
    var downs := seq(nX - 1, i => DownLine(Boundary(margin, i + 1, sizeX), margin, canvasHeight));
    var acrosses := seq(nY - 1, j => AcrossLine(Boundary(margin, j + 1, sizeY), margin, canvasWidth));
    var lines := GridLines(nX, nY, sizeX, sizeY, margin, canvasWidth, canvasHeight);
    assert lines == downs + acrosses;
    forall k | 0 <= k < nX - 1
      ensures lines[k] == DownLine(Boundary(margin, k + 1, sizeX), margin, canvasHeight)
      ensures margin < lines[k].x1 < margin + canvasWidth
    {
      assert lines[k] == downs[k] == DownLine(Boundary(margin, k + 1, sizeX), margin, canvasHeight);
      InnerBoundary(margin, k + 1, nX, sizeX);
    }
    forall k | nX - 1 <= k < |lines|
      ensures lines[k] == AcrossLine(Boundary(margin, k - (nX - 1) + 1, sizeY), margin, canvasWidth)
      ensures margin < lines[k].y1 < margin + canvasHeight
    {
      var j := k - (nX - 1);
      assert lines[k] == acrosses[j] == AcrossLine(Boundary(margin, j + 1, sizeY), margin, canvasWidth);
      InnerBoundary(margin, j + 1, nY, sizeY);
    }
    forall k | 0 <= k < nX - 2
      ensures lines[k].x1 < lines[k + 1].x1
    {
      BoundaryStep(margin, k + 1, sizeX);
    }
    forall k | nX - 1 <= k < |lines| - 1
      ensures lines[k].y1 < lines[k + 1].y1
    {
      BoundaryStep(margin, k - (nX - 1) + 1, sizeY);
    }
  }
}

=== FILE: pie_sector.dfy ===
/**
 * The outline of a pie sector: a single open arc on the circle of the given
 * centre and radius, from the start angle to the end angle.
 *
 * Cosine and sine are parameters: nothing here depends on their values beyond
 * their being applied to the normalised angles.
 */
module PieSector {
  import opened Wrappers
  import opened GraphModel

  /** Math.PI. */
  const Pi: real := 3.141592653589793

  /** The direction WPF traces an arc in. On the canvas y grows downwards, so
      Clockwise is the direction of increasing angle. */
  datatype SweepDirection = Clockwise | Counterclockwise

  datatype Size = Size(width: real, height: real)

  datatype ArcSegment = ArcSegment(point: Point, size: Size, rotationAngle: real,
                                   isLargeArc: bool, sweepDirection: SweepDirection, isStroked: bool)

  datatype PathFigure = PathFigure(startPoint: Point, segments: seq<ArcSegment>, isClosed: bool)

  datatype FillRule = EvenOdd | Nonzero

  /** A path geometry (its transform is always null here, so it is not kept). */
  datatype PathGeometry = PathGeometry(figures: seq<PathFigure>, fillRule: FillRule)

  /** The properties of a PieSector shape. */
  datatype Sector = Sector(center: Point, startAngle: real, endAngle: real, radius: real, smallAngle: bool)

  /** The registered default value of each property. */
  function DefaultSector(): (s: Sector)
    ensures s.center == Point(0.0, 0.0) && s.startAngle == 0.0 && s.endAngle == Pi / 2.0
    ensures s.radius == 10.0 && !s.smallAngle
  {
    Sector(Point(0.0, 0.0), 0.0, Pi / 2.0, 10.0, false)
  }

  /** An angle in the range DefiningGeometry expects: [-2 pi, 2 pi). */
  predicate InTurn(angle: real) {
    -2.0 * Pi <= angle < 2.0 * Pi
  }

  /** A negative angle gets one turn added; any other angle is kept. */
  function Normalize(angle: real): (a: real)
    ensures a >= 0.0 <==> angle >= -2.0 * Pi
    ensures InTurn(angle) ==> 0.0 <= a < 2.0 * Pi
  {
    if angle < 0.0 then angle + 2.0 * Pi else angle
  }

  /** The start and end angle the arc is drawn between: both normalised, then the
      end moved one turn on if it lies before the start. */
  function Angles(s: Sector): (r: (real, real))
    ensures InTurn(s.startAngle) && InTurn(s.endAngle) ==>
      0.0 <= r.0 < 2.0 * Pi && r.0 <= r.1 < r.0 + 2.0 * Pi
  {
    var a0 := Normalize(s.startAngle);
    var a1 := Normalize(s.endAngle);
    (a0, if a1 < a0 then a1 + Pi * 2.0 else a1)
  }

  /** The large-arc flag and sweep direction for an arc from a0 to a1. */
  function ArcFlags(smallAngle: bool, a0: real, a1: real): (bool, SweepDirection) {
    if smallAngle then
      (false, if a1 - a0 > Pi then Counterclockwise else Clockwise)
    else
      (if a1 - a0 < 0.0 then -(a1 - a0) < Pi else a1 - a0 < Pi, Counterclockwise)
  }

  /** Center + (cos a, sin a) * Radius. */
  function OnCircle(center: Point, radius: real, a: real, cos: real -> real, sin: real -> real): Point {
    Point(center.x + cos(a) * radius, center.y + sin(a) * radius)
  }

  /** The shape's geometry: one open figure starting on the circle at the start
      angle, holding one stroked arc of radii (Radius, Radius), rotation 0, to
      the point on the circle at the end angle. WPF's Size refuses a negative
      width or height with an ArgumentException, so a negative Radius gives None. */
  function DefiningGeometry(s: Sector, cos: real -> real, sin: real -> real): (r: Option<PathGeometry>)
    ensures r.None? <==> s.radius < 0.0
    ensures r.Some? ==> var g := r.value;
      && |g.figures| == 1 && !g.figures[0].isClosed && |g.figures[0].segments| == 1
      && g.fillRule == EvenOdd
      && var (a0, a1) := Angles(s); var seg := g.figures[0].segments[0];
      && g.figures[0].startPoint == OnCircle(s.center, s.radius, a0, cos, sin)
      && seg.point == OnCircle(s.center, s.radius, a1, cos, sin)
      && seg.size == Size(s.radius, s.radius) && seg.rotationAngle == 0.0 && seg.isStroked
      && (seg.isLargeArc, seg.sweepDirection) == ArcFlags(s.smallAngle, a0, a1)
  {
    var (a0, a1) := Angles(s);
    var (large, d) := ArcFlags(s.smallAngle, a0, a1);
    var p0 := OnCircle(s.center, s.radius, a0, cos, sin);
    var p1 := OnCircle(s.center, s.radius, a1, cos, sin);
    if s.radius < 0.0 then None
    else
      var segment := ArcSegment(p1, Size(s.radius, s.radius), 0.0, large, d, true);
      Some(PathGeometry([PathFigure(p0, [segment], false)], EvenOdd))
  }

  // ----- properties -----

  /** With SmallAngle set the flag is never "large", and the sweep is
      Counterclockwise exactly when the span exceeds pi. */
  lemma SmallAngleFlags(s: Sector, cos: real -> real, sin: real -> real)
    requires s.smallAngle
    requires s.radius >= 0.0
    ensures var seg := DefiningGeometry(s, cos, sin).value.figures[0].segments[0];
      var (a0, a1) := Angles(s);
      !seg.isLargeArc && (seg.sweepDirection == Counterclockwise <==> a1 - a0 > Pi)
  {
  }

  /** Without SmallAngle the sweep is always Counterclockwise and the flag is
      "large" exactly when the span, taken as an absolute value, is LESS than pi. */
  lemma WideAngleFlags(s: Sector, cos: real -> real, sin: real -> real)
    requires !s.smallAngle
    requires s.radius >= 0.0
    ensures var seg := DefiningGeometry(s, cos, sin).value.figures[0].segments[0];
      var (a0, a1) := Angles(s);
      seg.sweepDirection == Counterclockwise &&
      (seg.isLargeArc <==> (a1 - a0 < Pi && a0 - a1 < Pi))
  {
  }

  /** The angle an arc from a0 to a1 covers when traced in direction d on the
      canvas: Clockwise follows increasing angle, Counterclockwise goes the
      other way round the circle. */
  function Swept(d: SweepDirection, a0: real, a1: real): real {
    if d == Clockwise then a1 - a0 else 2.0 * Pi - (a1 - a0)
  }

  /** The large-arc flag always agrees with the arc actually traced: it is set
      exactly when the traced arc is longer than half a turn. So the polarity
      "large iff the span is less than pi" is the right one for a Counterclockwise
      sweep, and with SmallAngle set the traced arc is never more than half a turn. */
  lemma ArcFlagsMatchSweep(s: Sector, cos: real -> real, sin: real -> real)
    requires InTurn(s.startAngle) && InTurn(s.endAngle)
    requires s.radius >= 0.0
    ensures var seg := DefiningGeometry(s, cos, sin).value.figures[0].segments[0];
      var (a0, a1) := Angles(s);
      var swept := Swept(seg.sweepDirection, a0, a1);
      0.0 <= swept <= 2.0 * Pi &&
      (seg.isLargeArc <==> swept > Pi) &&
      (s.smallAngle ==> swept <= Pi)
  {
  }

  /** The default sector: angles 0 and pi/2, a "large" flag, Counterclockwise,
      from (10 cos 0, 10 sin 0) to (10 cos pi/2, 10 sin pi/2). */
  lemma DefaultGeometry(cos: real -> real, sin: real -> real)
    ensures DefiningGeometry(DefaultSector(), cos, sin).Some?
    ensures var g := DefiningGeometry(DefaultSector(), cos, sin).value;
      var seg := g.figures[0].segments[0];
      Angles(DefaultSector()) == (0.0, Pi / 2.0) &&
      seg.isLargeArc && seg.sweepDirection == Counterclockwise &&
      g.figures[0].startPoint == Point(cos(0.0) * 10.0, sin(0.0) * 10.0) &&
      seg.point == Point(cos(Pi / 2.0) * 10.0, sin(Pi / 2.0) * 10.0)
  {
  }

  /** A start angle of -pi/2 is drawn from 3 pi / 2. */
  lemma NegativeStartAngle(s: Sector)
    requires s.startAngle == -Pi / 2.0
    ensures Angles(s).0 == 3.0 * Pi / 2.0
  {
  }
}

=== FILE: render.dfy ===
/**
 * What UpdatePoints puts on the canvas: a dot for a graph of one point, a
 * polyline through the mapped points for a graph of more, nothing for an
 * empty graph, and nothing at all while the canvas has no area. A dot of
 * negative thickness is refused by WPF (an ArgumentException from the
 * ellipse's Width), which ends the redraw with the earlier shapes on the canvas.
 */
module Render {
  import opened Wrappers
  import opened GraphModel
  import opened Bounds
  import opened CanvasMap

  /** A shape on the canvas: an ellipse (the dot) or a polyline. */
  datatype Primitive =
    | Ellipse(left: real, top: real, width: real, height: real, fill: Option<Brush>)
    | Stroke(points: seq<Point>, stroke: Option<Brush>, thickness: real)

  /** Mapping is only ever asked of a viewport with nonzero spans. */
  predicate Drawable(gs: seq<Graph>, v: Viewport, canvasWidth: real, canvasHeight: real) {
    canvasWidth == 0.0 || canvasHeight == 0.0 || Mappable(v) ||
    forall i :: 0 <= i < |gs| ==> |gs[i].polyline.points| == 0
  }

  function MapAll(pts: seq<Point>, v: Viewport, canvasWidth: real, canvasHeight: real): seq<Point>
    requires Mappable(v)
  {
    seq(|pts|, k requires 0 <= k < |pts| => ToCanvas(pts[k], v, canvasWidth, canvasHeight))
  }

  /** The shapes drawn for one graph. */
  function GraphShapes(g: Graph, v: Viewport, canvasWidth: real, canvasHeight: real): seq<Primitive>
    requires Mappable(v) || |g.polyline.points| == 0
  {
    var pl := g.polyline;
    if |pl.points| == 1 then
      var p := ToCanvas(pl.points[0], v, canvasWidth, canvasHeight);
      [Ellipse(p.x - pl.thickness / 2.0, p.y - pl.thickness / 2.0, pl.thickness, pl.thickness, pl.stroke)]
    else if |pl.points| > 1 then
      [Stroke(MapAll(pl.points, v, canvasWidth, canvasHeight), pl.stroke, pl.thickness)]
    else
      []
  }

  /** The shapes for all graphs, graph by graph. */
  function AllShapes(gs: seq<Graph>, v: Viewport, canvasWidth: real, canvasHeight: real): seq<Primitive>
    requires Mappable(v) || forall i :: 0 <= i < |gs| ==> |gs[i].polyline.points| == 0
    decreases |gs|
  {
    if |gs| == 0 then []
    else AllShapes(gs[..|gs| - 1], v, canvasWidth, canvasHeight)
         + GraphShapes(gs[|gs| - 1], v, canvasWidth, canvasHeight)
  }

  /** The canvas content UpdatePoints leaves. */
  function Shapes(gs: seq<Graph>, v: Viewport, canvasWidth: real, canvasHeight: real): seq<Primitive>
    requires Drawable(gs, v, canvasWidth, canvasHeight)
  {
    if canvasWidth == 0.0 || canvasHeight == 0.0 then [] else AllShapes(gs, v, canvasWidth, canvasHeight)
  }

  /** A one-point graph of negative thickness: its dot's Width is negative,
      which WPF refuses with an ArgumentException. */
  predicate DotRefused(g: Graph) {
    |g.polyline.points| == 1 && g.polyline.thickness < 0.0
  }

  /** The index of the first graph whose dot is refused, if any. */
  function FirstRefused(gs: seq<Graph>): (r: Option<nat>)
    ensures r.None? <==> forall i :: 0 <= i < |gs| ==> !DotRefused(gs[i])
    ensures r.Some? ==>
      r.value < |gs| && DotRefused(gs[r.value]) && forall j :: 0 <= j < r.value ==> !DotRefused(gs[j])
    decreases |gs|
  {
    if |gs| == 0 then None
    else if DotRefused(gs[0]) then Some(0)
    else match FirstRefused(gs[1..])
      case None => None
      case Some(i) => Some(i + 1)
  }

  /** What a redraw of the points leaves: the shapes on the canvas, and whether
      an exception escaped the redraw. */
  datatype Redraw = Redraw(shapes: seq<Primitive>, thrown: bool)

  /** The redraw of the points: the canvas is cleared, then the graphs are drawn
      in order until one of them is refused. */
  function Redrawn(gs: seq<Graph>, v: Viewport, canvasWidth: real, canvasHeight: real): (r: Redraw)
    requires Drawable(gs, v, canvasWidth, canvasHeight)
    ensures r.thrown <==>
      canvasWidth != 0.0 && canvasHeight != 0.0 && exists i :: 0 <= i < |gs| && DotRefused(gs[i])
    ensures !r.thrown ==> r.shapes == Shapes(gs, v, canvasWidth, canvasHeight)
    ensures r.thrown ==>
      exists i :: 0 <= i < |gs| && DotRefused(gs[i]) && (forall j :: 0 <= j < i ==> !DotRefused(gs[j])) &&
        r.shapes == AllShapes(gs[..i], v, canvasWidth, canvasHeight)
  {
    if canvasWidth == 0.0 || canvasHeight == 0.0 then Redraw([], false)
    else match FirstRefused(gs)
      case None => Redraw(AllShapes(gs, v, canvasWidth, canvasHeight), false)
      case Some(i) =>
        assert |gs[i].polyline.points| == 1;
        assert Mappable(v);
        Redraw(AllShapes(gs[..i], v, canvasWidth, canvasHeight), true)
  }

  /** A shape WPF accepts: a dot has a width and height of zero or more. */
  predicate DotSized(s: Primitive) {
    s.Ellipse? ==> s.width >= 0.0 && s.height >= 0.0
  }

  /** Every dot on the canvas after a redraw has a size of zero or more. */
  lemma RedrawnDotsSized(gs: seq<Graph>, v: Viewport, canvasWidth: real, canvasHeight: real)
    requires Drawable(gs, v, canvasWidth, canvasHeight)
    ensures var r := Redrawn(gs, v, canvasWidth, canvasHeight).shapes;
      forall k :: 0 <= k < |r| ==> DotSized(r[k])
  {
    if canvasWidth != 0.0 && canvasHeight != 0.0 {
      match FirstRefused(gs)
      case None =>
        AllShapesDotsSized(gs, v, canvasWidth, canvasHeight);
        assert forall k :: 0 <= k < |AllShapes(gs, v, canvasWidth, canvasHeight)| ==>
          DotSized(AllShapes(gs, v, canvasWidth, canvasHeight)[k]);
        assert Redrawn(gs, v, canvasWidth, canvasHeight).shapes == AllShapes(gs, v, canvasWidth, canvasHeight);
      case Some(i) =>
        assert |gs[i].polyline.points| == 1;
        assert forall j :: 0 <= j < i ==> gs[..i][j] == gs[j];
        AllShapesDotsSized(gs[..i], v, canvasWidth, canvasHeight);
        assert forall k :: 0 <= k < |AllShapes(gs[..i], v, canvasWidth, canvasHeight)| ==>
          DotSized(AllShapes(gs[..i], v, canvasWidth, canvasHeight)[k]);
        assert Redrawn(gs, v, canvasWidth, canvasHeight).shapes == AllShapes(gs[..i], v, canvasWidth, canvasHeight);
    }
  }

  /** Graphs none of whose dots is refused are drawn with dots of size zero or more. */
  lemma {:induction false} AllShapesDotsSized(gs: seq<Graph>, v: Viewport, canvasWidth: real, canvasHeight: real)
    requires Mappable(v) || forall i :: 0 <= i < |gs| ==> |gs[i].polyline.points| == 0
    requires forall i :: 0 <= i < |gs| ==> !DotRefused(gs[i])
    ensures var r := AllShapes(gs, v, canvasWidth, canvasHeight);
      forall k :: 0 <= k < |r| ==> DotSized(r[k])
    decreases |gs|
  {
    if |gs| > 0 {
      var init := gs[..|gs| - 1];
      assert forall i :: 0 <= i < |init| ==> init[i] == gs[i];
      AllShapesDotsSized(init, v, canvasWidth, canvasHeight);
      assert forall k :: 0 <= k < |AllShapes(init, v, canvasWidth, canvasHeight)| ==>
        DotSized(AllShapes(init, v, canvasWidth, canvasHeight)[k]);
      var front := AllShapes(init, v, canvasWidth, canvasHeight);
      var last := GraphShapes(gs[|gs| - 1], v, canvasWidth, canvasHeight);
      assert !DotRefused(gs[|gs| - 1]);
      assert forall k :: 0 <= k < |last| ==> DotSized(last[k]);
      var r := AllShapes(gs, v, canvasWidth, canvasHeight);
      assert r == front + last;
      forall k | 0 <= k < |r|
        ensures DotSized(r[k])
      {
        if k < |front| {
          assert r[k] == front[k];
          assert DotSized(front[k]);
        } else {
          assert r[k] == last[k - |front|];
          assert DotSized(last[k - |front|]);
        }
      }
    }
  }

  /** The number of graphs that have at least one point. */
  function NonEmptyCount(gs: seq<Graph>): nat
    decreases |gs|
  {
    if |gs| == 0 then 0
    else NonEmptyCount(gs[..|gs| - 1]) + (if |gs[|gs| - 1].polyline.points| > 0 then 1 else 0)
  }

  /** One shape per non-empty graph, none for an empty one. */
  lemma {:induction false} AllShapesCount(gs: seq<Graph>, v: Viewport, canvasWidth: real, canvasHeight: real)
    requires Mappable(v) || forall i :: 0 <= i < |gs| ==> |gs[i].polyline.points| == 0
    ensures |AllShapes(gs, v, canvasWidth, canvasHeight)| == NonEmptyCount(gs)
    decreases |gs|
  {
    if |gs| > 0 {
      AllShapesCount(gs[..|gs| - 1], v, canvasWidth, canvasHeight);
    }
  }

  /** Nothing is drawn on a canvas without area; otherwise exactly one shape per non-empty graph. */
  lemma ShapesCount(gs: seq<Graph>, v: Viewport, canvasWidth: real, canvasHeight: real)
    requires Drawable(gs, v, canvasWidth, canvasHeight)
    ensures |Shapes(gs, v, canvasWidth, canvasHeight)| ==
      if canvasWidth == 0.0 || canvasHeight == 0.0 then 0 else NonEmptyCount(gs)
  {
    if canvasWidth != 0.0 && canvasHeight != 0.0 {
      AllShapesCount(gs, v, canvasWidth, canvasHeight);
    }
  }

  /** A one-point graph becomes a dot centred on its mapped point, as wide as the
      stroke is thick; a graph of several points becomes a polyline through the
      mapped points, one for one and in order. */
  lemma GraphShapesKind(g: Graph, v: Viewport, canvasWidth: real, canvasHeight: real)
    requires Mappable(v)
    ensures var r := GraphShapes(g, v, canvasWidth, canvasHeight); var pts := g.polyline.points;
      (|pts| == 0 <==> |r| == 0) && |r| <= 1 &&
      (|pts| == 1 ==>
         (var c := ToCanvas(pts[0], v, canvasWidth, canvasHeight);
          r[0].Ellipse? && r[0].left + r[0].width / 2.0 == c.x && r[0].top + r[0].height / 2.0 == c.y &&
          r[0].width == g.polyline.thickness && r[0].height == g.polyline.thickness &&
          r[0].fill == g.polyline.stroke)) &&
      (|pts| > 1 ==>
         (r[0].Stroke? && |r[0].points| == |pts| && r[0].stroke == g.polyline.stroke &&
          r[0].thickness == g.polyline.thickness &&
          forall k :: 0 <= k < |pts| ==> r[0].points[k] == ToCanvas(pts[k], v, canvasWidth, canvasHeight)))
  {
  }

  /** A point on the canvas rectangle [0, W] x [0, H]. */
  predicate OnCanvas(p: Point, canvasWidth: real, canvasHeight: real) {
    0.0 <= p.x <= canvasWidth && 0.0 <= p.y <= canvasHeight
  }

  /** A dot whose centre is on the canvas, or a polyline whose every vertex is. */
  predicate ShapeOnCanvas(s: Primitive, canvasWidth: real, canvasHeight: real) {
    match s
    case Ellipse(left, top, width, height, _) =>
      OnCanvas(Point(left + width / 2.0, top + height / 2.0), canvasWidth, canvasHeight)
    case Stroke(points, _, _) =>
      forall m :: 0 <= m < |points| ==> OnCanvas(points[m], canvasWidth, canvasHeight)
  }

  /** With the bounds auto mode computes, every dot centre and every polyline
      vertex lands on the canvas. */
  lemma AutoShapesOnCanvas(gs: seq<Graph>, canvasWidth: real, canvasHeight: real)
    requires canvasWidth >= 0.0 && canvasHeight >= 0.0
    ensures Drawable(gs, AutoViewport(gs), canvasWidth, canvasHeight)
    ensures var r := Shapes(gs, AutoViewport(gs), canvasWidth, canvasHeight);
      forall k :: 0 <= k < |r| ==> ShapeOnCanvas(r[k], canvasWidth, canvasHeight)
  {
    AutoViewportSound(gs);
    var v := AutoViewport(gs);
    if canvasWidth != 0.0 && canvasHeight != 0.0 {
      AllShapesOnCanvas(gs, v, canvasWidth, canvasHeight);
      assert Shapes(gs, v, canvasWidth, canvasHeight) == AllShapes(gs, v, canvasWidth, canvasHeight);
    }
  }

  /** The shapes of graphs whose points all lie in v are all on the canvas. */
  lemma {:induction false} AllShapesOnCanvas(gs: seq<Graph>, v: Viewport, canvasWidth: real, canvasHeight: real)
    requires v.xmin < v.xmax && v.ymin < v.ymax && canvasWidth >= 0.0 && canvasHeight >= 0.0
    requires forall i, k :: 0 <= i < |gs| && 0 <= k < |gs[i].polyline.points| ==> Contains(v, gs[i].polyline.points[k])
    ensures var r := AllShapes(gs, v, canvasWidth, canvasHeight);
      forall k :: 0 <= k < |r| ==> ShapeOnCanvas(r[k], canvasWidth, canvasHeight)
    decreases |gs|
  {
    if |gs| > 0 {
      var init, g := gs[..|gs| - 1], gs[|gs| - 1];
      assert forall i :: 0 <= i < |init| ==> init[i] == gs[i];
      AllShapesOnCanvas(init, v, canvasWidth, canvasHeight);
      assert forall k :: 0 <= k < |AllShapes(init, v, canvasWidth, canvasHeight)| ==>
        ShapeOnCanvas(AllShapes(init, v, canvasWidth, canvasHeight)[k], canvasWidth, canvasHeight);
      var pts := g.polyline.points;
      forall k | 0 <= k < |pts|
        ensures OnCanvas(ToCanvas(pts[k], v, canvasWidth, canvasHeight), canvasWidth, canvasHeight)
      {
        assert Contains(v, gs[|gs| - 1].polyline.points[k]);
        ToCanvasInside(pts[k], v, canvasWidth, canvasHeight);
      }
      var front := AllShapes(init, v, canvasWidth, canvasHeight);
      var last := GraphShapes(g, v, canvasWidth, canvasHeight);
      assert forall k :: 0 <= k < |last| ==> ShapeOnCanvas(last[k], canvasWidth, canvasHeight);
      var r := AllShapes(gs, v, canvasWidth, canvasHeight);
      assert r == front + last;
      forall k | 0 <= k < |r|
        ensures ShapeOnCanvas(r[k], canvasWidth, canvasHeight)
      {
        if k < |front| {
          assert r[k] == front[k];
          assert ShapeOnCanvas(front[k], canvasWidth, canvasHeight);
        } else {
          var j := k - |front|;
          assert r[k] == last[j];
          assert ShapeOnCanvas(last[j], canvasWidth, canvasHeight);
        }
      }
    }
  }
}

=== FILE: spot_control.dfy ===
/**
 * The plot control: its list of graphs, its bounds (auto or fixed), the
 * operations that edit the list and recompute the bounds, and the redraw
 * that maps the graphs onto the canvas and lays out the grid and the ticks.
 */
module Spot {
  import opened Wrappers
  import opened GraphModel
  import opened Bounds
  import opened CanvasMap
  import opened Grid
  import opened Render

  /** The exceptions the control's operations throw. */
  datatype Error =
    | NoGraphNamed(name: string)  // ArgumentException naming the graph
    | OutOfRange                  // the list's own ArgumentOutOfRangeException
    | WrappedOutOfRange           // an out-of-range index rethrown as ArgumentException
    | BareArgument                // ArgumentException without a message

  datatype Outcome = Done | Failed(error: Error)

  /** What the grid and axis pass produces: the cell layout, the grid lines
      (empty when the grid is hidden) and the tick values along each axis. */
  datatype Axes = Axes(layout: GridLayout, lines: seq<Line>, xTicks: seq<real>, yTicks: seq<real>)

  // ----- the list operations, on values -----

  /** The index of the first graph with the given name, if any. */
  function FirstNamed(gs: seq<Graph>, name: string): (r: Option<nat>)
    ensures r.None? <==> forall i :: 0 <= i < |gs| ==> gs[i].name != name
    ensures r.Some? ==>
      (r.value < |gs| && gs[r.value].name == name && forall j :: 0 <= j < r.value ==> gs[j].name != name)
    decreases |gs|
  {
    if |gs| == 0 then None
    else if gs[0].name == name then Some(0)
    else match FirstNamed(gs[1..], name)
      case None => None
      case Some(i) => Some(i + 1)
  }

  /** The list with the graph at index i taken out; the others keep their order. */
  function RemoveAt(gs: seq<Graph>, i: nat): (r: seq<Graph>)
    requires i < |gs|
    ensures |r| == |gs| - 1
    ensures forall j :: 0 <= j < i ==> r[j] == gs[j]
    ensures forall j :: i <= j < |r| ==> r[j] == gs[j + 1]
  {
    gs[..i] + gs[i + 1..]
  }

  /** The graph with more points added at the end of its polyline. */
  function AppendPoints(g: Graph, pts: seq<Point>): (r: Graph)
    ensures r.name == g.name && r.polyline.stroke == g.polyline.stroke
    ensures r.polyline.thickness == g.polyline.thickness
    ensures |r.polyline.points| == |g.polyline.points| + |pts|
    ensures r.polyline.points[..|g.polyline.points|] == g.polyline.points
    ensures r.polyline.points[|g.polyline.points|..] == pts
  {
    WithPoints(g, g.polyline.points + pts)
  }

  /** The points of pts that are not in drop, in their order. */
  function Without(pts: seq<Point>, drop: seq<Point>): (r: seq<Point>)
    ensures |r| <= |pts|
    ensures forall p :: p in r <==> p in pts && p !in drop
    decreases |pts|
  {
    if |pts| == 0 then []
    else
      var init, p := pts[..|pts| - 1], pts[|pts| - 1];
      assert forall q :: q in pts <==> q in init || q == p;
      Without(init, drop) + (if p in drop then [] else [p])
  }

  /** The index of the first point of pts that is among drop, if any. */
  function FirstAmong(pts: seq<Point>, drop: seq<Point>): (r: Option<nat>)
    ensures r.None? <==> forall k :: 0 <= k < |pts| ==> pts[k] !in drop
    ensures r.Some? ==>
      r.value < |pts| && pts[r.value] in drop && forall j :: 0 <= j < r.value ==> pts[j] !in drop
    decreases |pts|
  {
    if |pts| == 0 then None
    else if pts[0] in drop then Some(0)
    else match FirstAmong(pts[1..], drop)
      case None => None
      case Some(k) => Some(k + 1)
  }

  /** The point-removal loop as written: it removes from the PointCollection it
      is enumerating, and that collection's enumerator throws an
      InvalidOperationException on the step after a change. So the first point
      among drop is taken out and the loop then throws (true); with no such point
      the list is kept and nothing is thrown. */
  function RemovalAsWritten(pts: seq<Point>, drop: seq<Point>): (r: (seq<Point>, bool))
    ensures !r.1 <==> forall k :: 0 <= k < |pts| ==> pts[k] !in drop
    ensures !r.1 ==> r.0 == pts
    ensures r.1 ==>
      exists k :: 0 <= k < |pts| && pts[k] in drop &&
        (forall j :: 0 <= j < k ==> pts[j] !in drop) && r.0 == pts[..k] + pts[k + 1..]
  {
    match FirstAmong(pts, drop)
    case None => (pts, false)
    case Some(k) => (pts[..k] + pts[k + 1..], true)
  }

  /** Removing both points of a two-point graph: the loop as written takes out
      only the first and throws, where the evident intent leaves no point. */
  lemma RemovalAsWrittenStopsEarly(a: Point, b: Point)
    ensures RemovalAsWritten([a, b], [a, b]) == ([b], true)
    ensures Without([a, b], [a, b]) == []
  {
    var pts := [a, b];
    assert pts[0] in pts;
    assert FirstAmong(pts, pts) == Some(0);
    assert pts[..0] + pts[1..] == [b];
    WithoutOne(a, pts);
    WithoutOne(b, pts);
    assert [a] + [b] == pts;
    WithoutAppend([a], [b], pts);
  }

  /** When no point is to be dropped, the list is kept whole and in order. */
  lemma {:induction false} WithoutNothing(pts: seq<Point>, drop: seq<Point>)
    requires forall k :: 0 <= k < |pts| ==> pts[k] !in drop
    ensures Without(pts, drop) == pts
    decreases |pts|
  {
    if |pts| > 0 {
      WithoutNothing(pts[..|pts| - 1], drop);
      assert pts[..|pts| - 1] + [pts[|pts| - 1]] == pts;
    }
  }

  /** Removing the same points twice changes nothing more. */
  lemma WithoutIdempotent(pts: seq<Point>, drop: seq<Point>)
    ensures Without(Without(pts, drop), drop) == Without(pts, drop)
  {
    var r := Without(pts, drop);
    forall k | 0 <= k < |r|
      ensures r[k] !in drop
    {
      assert r[k] in r;
    }
    WithoutNothing(r, drop);
  }

  /** A single point is kept exactly when it is not among those to drop. */
  lemma WithoutOne(p: Point, drop: seq<Point>)
    ensures Without([p], drop) == if p in drop then [] else [p]
  {
    assert [p][..0] == [];
  }

  /** Removal works piecewise: the kept points of a concatenation are the kept
      points of each part, in the same order. With WithoutOne this pins Without
      down to "keep each point not among drop, in order, with its repetitions". */
  lemma {:induction false} WithoutAppend(xs: seq<Point>, ys: seq<Point>, drop: seq<Point>)
    ensures Without(xs + ys, drop) == Without(xs, drop) + Without(ys, drop)
    decreases |ys|
  {
    if |ys| == 0 {
      assert xs + ys == xs;
    } else {
      var init, last := ys[..|ys| - 1], ys[|ys| - 1];
      var tail := if last in drop then [] else [last];
      WithoutAppend(xs, init, drop);
      assert (xs + ys)[..|xs + ys| - 1] == xs + init && (xs + ys)[|xs + ys| - 1] == last;
      assert Without(xs + ys, drop) == Without(xs + init, drop) + tail;
      assert Without(ys, drop) == Without(init, drop) + tail;
    }
  }

  /** What the grid and axis pass leaves for the bounds v on a canvas of the
      given size: both axes settled, the grid lines the loops draw when the grid
      is shown, and the tick values along each axis. */
  predicate AxesDrawn(a: Axes, v: Viewport, canvasWidth: real, canvasHeight: real,
                      gridMinWidth: int, gridMinHeight: int, showGrid: bool, margin: real)
  {
    var g := a.layout;
    && Settled(canvasWidth, gridMinWidth, g.nX, g.sizeX)
    && Settled(canvasHeight, gridMinHeight, g.nY, g.sizeY)
    && g.nX >= 1 && g.nY >= 1
    && a.lines == (if showGrid then LinesAsWritten(g.nX, g.nY, g.sizeX, g.sizeY, margin, canvasWidth, canvasHeight) else [])
    && a.xTicks == XTicks(v, g.nX) && a.yTicks == YTicks(v, g.nY)
  }

  /** The bounds UpdateBounds installs for a given list and mode. */
  function Recomputed(gs: seq<Graph>, isFixed: bool, fixedBounds: Rect): Viewport {
    if isFixed then FromRect(fixedBounds) else AutoViewport(gs)
  }

  /** Auto-mode bounds always have room on both axes, so the map onto the canvas is defined. */
  lemma RecomputedMappable(gs: seq<Graph>, fixedBounds: Rect)
    ensures var v := Recomputed(gs, false, fixedBounds); v.xmin < v.xmax && v.ymin < v.ymax
  {
    AutoViewportSound(gs);
  }

  // ----- steps of the loops in UpdateBounds -----

  lemma FoldSnoc(b: Viewport, s: seq<Point>, p: Point)
    ensures Fold(b, s + [p]) == Include(Fold(b, s), p)
  {
    assert (s + [p])[..|s|] == s;
  }

  lemma FlattenSnoc(gs: seq<Graph>, i: nat)
    requires i < |gs|
    ensures Flatten(gs[..i + 1]) == Flatten(gs[..i]) + gs[i].polyline.points
  {
    assert gs[..i + 1][..i] == gs[..i];
  }

  /** The line tests extended by one point. */
  lemma LineSnoc(s: seq<Point>, p: Point, f: Viewport)
    ensures IsVerticalLine(s + [p], f) <==> IsVerticalLine(s, f) && p.x == f.xmin && p.x == f.xmax
    ensures IsHorizontalLine(s + [p], f) <==> IsHorizontalLine(s, f) && p.y == f.ymin && p.y == f.ymax
  {
    assert forall k :: 0 <= k < |s| ==> (s + [p])[k] == s[k];
    assert (s + [p])[|s|] == p;
  }

  /** A line test that fails on a prefix fails on the whole list. */
  lemma LinePrefix(prefix: seq<Point>, whole: seq<Point>, f: Viewport)
    requires prefix <= whole
    ensures IsVerticalLine(whole, f) ==> IsVerticalLine(prefix, f)
    ensures IsHorizontalLine(whole, f) ==> IsHorizontalLine(prefix, f)
  {
    assert forall k :: 0 <= k < |prefix| ==> prefix[k] == whole[k];
  }

  /** The prefix of graph gi's points seen so far, after all earlier graphs, is a prefix of all points. */
  lemma ScanPrefix(gs: seq<Graph>, gi: nat, pi: nat)
    requires gi < |gs| && pi <= |gs[gi].polyline.points|
    ensures Flatten(gs[..gi]) + gs[gi].polyline.points[..pi] <= Flatten(gs)
  {
    FlattenSnoc(gs, gi);
    FlattenPrefix(gs, gi + 1, |gs|);
    assert gs[..|gs|] == gs;
  }

  class SpotControl {
    /** The graphs, in the order they were added. */
    var graphs: seq<Graph>
    /** The current bounds of the plot, in data space. */
    var xmin: real
    var xmax: real
    var ymin: real
    var ymax: real
    /** The rectangle fixed mode uses, and whether fixed mode is on. */
    var fixedBounds: Rect
    var isFixedBound: bool
    /** The size of the canvas as last laid out. */
    var canvasWidth: real
    var canvasHeight: real
    /** The smallest grid cell, and the display options. */
    var gridMinWidth: int
    var gridMinHeight: int
    var showGrid: bool
    var digitsAfterPoint: int

    function Viewport(): Viewport
      reads this
    {
      Bounds.Viewport(xmin, xmax, ymin, ymax)
    }

    /** The bounds UpdateBounds would install now. */
    function Target(): Viewport
      reads this
    {
      Recomputed(graphs, isFixedBound, fixedBounds)
    }

    /** The default control: a grid of cells at least 60 x 60, three digits,
        auto bounds and no graphs, so the bounds are [-1,1] x [-1,1]. */
    constructor ()
      ensures graphs == [] && !isFixedBound && showGrid
      ensures gridMinWidth == 60 && gridMinHeight == 60 && digitsAfterPoint == 3
      ensures canvasWidth == 0.0 && canvasHeight == 0.0
      ensures Viewport() == Bounds.Viewport(-1.0, 1.0, -1.0, 1.0)
    {
      graphs := [];
      showGrid := true;
      gridMinWidth, gridMinHeight := 60, 60;
      digitsAfterPoint := 3;
      isFixedBound := false;
      fixedBounds := Rect(0.0, 0.0, 0.0, 0.0);
      canvasWidth, canvasHeight := 0.0, 0.0;
      xmin, xmax, ymin, ymax := 0.0, 0.0, 0.0, 0.0;
      new;
      UpdateBounds();
      NoPointsViewport([]);
      var _, _ := UpdatePoints();
    }

    /** The control with the caller's grid and display options. */
    constructor WithOptions(showGrid: bool, gridMinWidth: int, gridMinHeight: int, digitsAfterPoint: int)
      ensures graphs == [] && !isFixedBound && this.showGrid == showGrid
      ensures this.gridMinWidth == gridMinWidth && this.gridMinHeight == gridMinHeight
      ensures this.digitsAfterPoint == digitsAfterPoint
      ensures canvasWidth == 0.0 && canvasHeight == 0.0
      ensures Viewport() == Bounds.Viewport(-1.0, 1.0, -1.0, 1.0)
    {
      graphs := [];
      this.showGrid := showGrid;
      this.gridMinWidth, this.gridMinHeight := gridMinWidth, gridMinHeight;
      this.digitsAfterPoint := digitsAfterPoint;
      isFixedBound := false;
      fixedBounds := Rect(0.0, 0.0, 0.0, 0.0);
      canvasWidth, canvasHeight := 0.0, 0.0;
      xmin, xmax, ymin, ymax := 0.0, 0.0, 0.0, 0.0;
      new;
      UpdateBounds();
      NoPointsViewport([]);
      var _, _ := UpdatePoints();
    }

    /** Recomputes the bounds: the fixed rectangle in fixed mode, otherwise the
        fold over every point followed by the degenerate-axis correction. */
    method UpdateBounds()
      modifies this`xmin, this`xmax, this`ymin, this`ymax
      ensures Viewport() == Target()
    {
      if isFixedBound {
        xmin := fixedBounds.Left();
        ymin := fixedBounds.Top();
        xmax := fixedBounds.Right();
        ymax := fixedBounds.Bottom();
        return;
      }
      FoldBounds();
      var isVerticalLine, isHorizontalLine := LineFlags();
      WidenBounds(isVerticalLine, isHorizontalLine);
    }

    /** The correction for a degenerate axis: one unit more on each side. */
    method WidenBounds(isVerticalLine: bool, isHorizontalLine: bool)
      modifies this`xmin, this`xmax, this`ymin, this`ymax
      ensures Viewport() == WidenAxes(old(Viewport()), isVerticalLine, isHorizontalLine)
    {
      if isVerticalLine {
        xmin := xmin - 1.0;
        xmax := xmax + 1.0;
      }
      if isHorizontalLine {
        ymin := ymin - 1.0;
        ymax := ymax + 1.0;
      }
    }

    /** The first half of auto mode: start from the first point of the first
        graph (or the origin), then widen the bounds point by point. */
    method FoldBounds()
      modifies this`xmin, this`xmax, this`ymin, this`ymax
      ensures Viewport() == Folded(graphs)
    {
      xmin, ymin, xmax, ymax := 0.0, 0.0, 0.0, 0.0;
      if |graphs| > 0 {
        if |graphs[0].polyline.points| > 0 {
          var p := graphs[0].polyline.points[0];
          xmin, ymin, xmax, ymax := p.x, p.y, p.x, p.y;
        }
      }
      ghost var seed := Seed(graphs);
      assert Viewport() == seed;
      var gi := 0;
      while gi < |graphs|
        invariant 0 <= gi <= |graphs|
        invariant Viewport() == Fold(seed, Flatten(graphs[..gi]))
      {
        var points := graphs[gi].polyline.points;
        ghost var done := Flatten(graphs[..gi]);
        if |points| > 0 {
          IncludePoints(points);
        }
        FoldAppend(seed, done, points);
        FlattenSnoc(graphs, gi);
        gi := gi + 1;
      }
      assert graphs[..gi] == graphs;
    }

    /** The inner loop of the fold: the points of one graph, in order. */
    method IncludePoints(points: seq<Point>)
      modifies this`xmin, this`xmax, this`ymin, this`ymax
      ensures Viewport() == Fold(old(Viewport()), points)
    {
      ghost var start := Viewport();
      var pi := 0;
      while pi < |points|
        invariant 0 <= pi <= |points|
        invariant Viewport() == Fold(start, points[..pi])
      {
        var p := points[pi];
        IncludePoint(p);
        assert points[..pi + 1] == points[..pi] + [p];
        FoldSnoc(start, points[..pi], p);
        pi := pi + 1;
      }
      assert points[..pi] == points;
    }

    /** One step of the fold: each bound moves out to p when p lies beyond it. */
    method IncludePoint(p: Point)
      modifies this`xmin, this`xmax, this`ymin, this`ymax
      ensures Viewport() == Include(old(Viewport()), p)
    {
      if p.x < xmin { xmin := p.x; }
      if p.x > xmax { xmax := p.x; }
      if p.y < ymin { ymin := p.y; }
      if p.y > ymax { ymax := p.y; }
    }

    /** The second half of auto mode: whether every point lies on the vertical
        line x == xmin == xmax, and whether every point lies on the horizontal
        line y == ymin == ymax. The scan stops once both have failed. */
    method LineFlags() returns (isVerticalLine: bool, isHorizontalLine: bool)
      ensures isVerticalLine == IsVerticalLine(Flatten(graphs), Viewport())
      ensures isHorizontalLine == IsHorizontalLine(Flatten(graphs), Viewport())
    {
      ghost var f := Viewport();
      ghost var all := Flatten(graphs);
      isHorizontalLine := true;
      isVerticalLine := true;
      var gi := 0;
      while gi < |graphs|
        invariant 0 <= gi <= |graphs|
        invariant isVerticalLine == IsVerticalLine(Flatten(graphs[..gi]), f)
        invariant isHorizontalLine == IsHorizontalLine(Flatten(graphs[..gi]), f)
      {
        var points := graphs[gi].polyline.points;
        assert Flatten(graphs[..gi]) + points[..0] == Flatten(graphs[..gi]);
        if |points| > 0 {
          var pi := 0;
          while pi < |points|
            invariant 0 <= pi <= |points|
            invariant isVerticalLine == IsVerticalLine(Flatten(graphs[..gi]) + points[..pi], f)
            invariant isHorizontalLine == IsHorizontalLine(Flatten(graphs[..gi]) + points[..pi], f)
          {
            var p := points[pi];
            ghost var seen := Flatten(graphs[..gi]) + points[..pi];
            assert Flatten(graphs[..gi]) + points[..pi + 1] == seen + [p];
            LineSnoc(seen, p, f);
            if p.x != xmin { isVerticalLine := false; }
            if p.x != xmax { isVerticalLine := false; }
            if p.y != ymin { isHorizontalLine := false; }
            if p.y != ymax { isHorizontalLine := false; }
            pi := pi + 1;
            if !isHorizontalLine && !isVerticalLine {
              ScanPrefix(graphs, gi, pi);
              LinePrefix(Flatten(graphs[..gi]) + points[..pi], all, f);
              break;
            }
          }
        }
        assert points[..|points|] == points;
        FlattenSnoc(graphs, gi);
        ScanPrefix(graphs, gi, |points|);
        LinePrefix(Flatten(graphs[..gi + 1]), all, f);
        if !isHorizontalLine && !isVerticalLine {
          break;
        }
        gi := gi + 1;
      }
      assert gi == |graphs| ==> graphs[..gi] == graphs;
    }

    /** Appends one graph holding the given points, stroke and thickness, then recomputes the bounds.
        The colour may be null (None), and is then stored as a null stroke. */
    method AddGraph(points: seq<Point>, color: Option<Brush>, thickness: int, name: string)
      modifies this`graphs, this`xmin, this`xmax, this`ymin, this`ymax
      ensures graphs == old(graphs) + [Graph(name, Polyline(points, color, thickness as real))]
      ensures Viewport() == Target()
    {
      var pl := NewPolyline();
      for k := 0 to |points|
        invariant pl == Polyline(points[..k], None, 1.0)
      {
        pl := pl.(points := pl.points + [points[k]]);
        assert points[..k + 1] == points[..k] + [points[k]];
      }
      assert points[..|points|] == points;
      pl := pl.(stroke := color, thickness := thickness as real);
      graphs := graphs + [Graph(name, pl)];
      UpdateBounds();
    }

    /** Removes the graph at index; an index outside the list is reported wrapped, and nothing changes. */
    method RemoveGraphAt(index: int) returns (r: Outcome)
      modifies this`graphs, this`xmin, this`xmax, this`ymin, this`ymax
      ensures 0 <= index < |old(graphs)| ==>
        r == Done && graphs == RemoveAt(old(graphs), index) && Viewport() == Target()
      ensures !(0 <= index < |old(graphs)|) ==>
        r == Failed(WrappedOutOfRange) && graphs == old(graphs) && Viewport() == old(Viewport())
    {
      if !(0 <= index < |graphs|) {
        return Failed(WrappedOutOfRange);
      }
      graphs := graphs[..index] + graphs[index + 1..];
      UpdateBounds();
      r := Done;
    }

    /** Removes the first graph with the given name; with no such graph the list is kept. */
    method RemoveGraphNamed(name: string)
      modifies this`graphs, this`xmin, this`xmax, this`ymin, this`ymax
      ensures graphs == match FirstNamed(old(graphs), name)
        case None => old(graphs)
        case Some(i) => RemoveAt(old(graphs), i)
      ensures Viewport() == Target()
    {
      var i := 0;
      while i < |graphs|
        invariant 0 <= i <= |graphs| && graphs == old(graphs)
        invariant forall j :: 0 <= j < i ==> graphs[j].name != name
      {
        if graphs[i].name == name {
          graphs := graphs[..i] + graphs[i + 1..];
          break;
        }
        i := i + 1;
      }
      UpdateBounds();
    }

    /** Appends the points, one at a time, to the graph at index. With no points
        nothing is looked up; otherwise a bad index raises the list's own error
        before anything changes. */
    method AddPointsAt(points: seq<Point>, index: int) returns (r: Outcome)
      modifies this`graphs, this`xmin, this`xmax, this`ymin, this`ymax
      ensures |points| > 0 && !(0 <= index < |old(graphs)|) ==>
        r == Failed(OutOfRange) && graphs == old(graphs) && Viewport() == old(Viewport())
      ensures |points| == 0 ==> r == Done && graphs == old(graphs) && Viewport() == Target()
      ensures |points| > 0 && 0 <= index < |old(graphs)| ==>
        r == Done && graphs == old(graphs)[index := AppendPoints(old(graphs)[index], points)] &&
        Viewport() == Target()
    {
      for k := 0 to |points|
        invariant |graphs| == |old(graphs)|
        invariant k == 0 ==> graphs == old(graphs)
        invariant k > 0 ==>
          (0 <= index < |graphs| && graphs == old(graphs)[index := AppendPoints(old(graphs)[index], points[..k])])
        invariant Viewport() == old(Viewport())
      {
        if !(0 <= index < |graphs|) {
          return Failed(OutOfRange);
        }
        var g := graphs[index];
        graphs := graphs[index := WithPoints(g, g.polyline.points + [points[k]])];
        assert old(graphs)[index].polyline.points + points[..k + 1]
            == old(graphs)[index].polyline.points + points[..k] + [points[k]];
      }
      assert points[..|points|] == points;
      UpdateBounds();
      r := Done;
    }

    /** Appends the points to the first graph with the given name; with no such
        graph it fails, leaving everything (the bounds included) as it was. */
    method AddPointsNamed(points: seq<Point>, name: string) returns (r: Outcome)
      modifies this`graphs, this`xmin, this`xmax, this`ymin, this`ymax
      ensures FirstNamed(old(graphs), name).None? ==>
        r == Failed(NoGraphNamed(name)) && graphs == old(graphs) && Viewport() == old(Viewport())
      ensures FirstNamed(old(graphs), name).Some? ==>
        var i := FirstNamed(old(graphs), name).value;
        r == Done && graphs == old(graphs)[i := AppendPoints(old(graphs)[i], points)] &&
        Viewport() == Target()
    {
      var success := false;
      var i := 0;
      while i < |graphs|
        invariant 0 <= i <= |graphs| && |graphs| == |old(graphs)|
        invariant !success && graphs == old(graphs)
        invariant forall j :: 0 <= j < i ==> graphs[j].name != name
        invariant Viewport() == old(Viewport())
      {
        if graphs[i].name == name {
          assert points[..0] == [] && graphs[i].polyline.points + [] == graphs[i].polyline.points;
          for k := 0 to |points|
            invariant graphs == old(graphs)[i := AppendPoints(old(graphs)[i], points[..k])]
          {
            var g := graphs[i];
            graphs := graphs[i := WithPoints(g, g.polyline.points + [points[k]])];
            assert old(graphs)[i].polyline.points + points[..k + 1]
                == old(graphs)[i].polyline.points + points[..k] + [points[k]];
          }
          assert points[..|points|] == points;
          success := true;
          break;
        }
        i := i + 1;
      }
      if success {
        UpdateBounds();
        r := Done;
      } else {
        r := Failed(NoGraphNamed(name));
      }
    }

    /** Takes out of the graph at index every point that is among the given ones,
        keeping the rest in order; an index outside the list is reported wrapped. */
    method RemovePointsAt(points: seq<Point>, index: int) returns (r: Outcome)
      modifies this`graphs, this`xmin, this`xmax, this`ymin, this`ymax
      ensures !(0 <= index < |old(graphs)|) ==>
        r == Failed(WrappedOutOfRange) && graphs == old(graphs) && Viewport() == old(Viewport())
      ensures 0 <= index < |old(graphs)| ==>
        var g := old(graphs)[index];
        r == Done && graphs == old(graphs)[index := WithPoints(g, Without(g.polyline.points, points))] &&
        Viewport() == Target()
    {
      if !(0 <= index < |graphs|) {
        return Failed(WrappedOutOfRange);
      }
      var kept := FilterPoints(graphs[index].polyline.points, points);
      graphs := graphs[index := WithPoints(graphs[index], kept)];
      UpdateBounds();
      r := Done;
    }

    /** Looks only at the first graph: when it has the given name its points among
        the given ones are taken out; otherwise, and with no graphs, it fails and
        nothing changes. */
    method RemovePointsNamed(points: seq<Point>, name: string) returns (r: Outcome)
      modifies this`graphs, this`xmin, this`xmax, this`ymin, this`ymax
      ensures !(|old(graphs)| > 0 && old(graphs)[0].name == name) ==>
        r == Failed(BareArgument) && graphs == old(graphs) && Viewport() == old(Viewport())
      ensures |old(graphs)| > 0 && old(graphs)[0].name == name ==>
        var g := old(graphs)[0];
        r == Done && graphs == old(graphs)[0 := WithPoints(g, Without(g.polyline.points, points))] &&
        Viewport() == Target()
    {
      var success := false;
      // The loop over the graphs breaks after its first iteration whatever the name.
      if |graphs| > 0 {
        if graphs[0].name == name {
          var kept := FilterPoints(graphs[0].polyline.points, points);
          graphs := graphs[0 := WithPoints(graphs[0], kept)];
          success := true;
        }
      }
      if success {
        UpdateBounds();
        r := Done;
      } else {
        r := Failed(BareArgument);
      }
    }

    /** Empties the list; the bounds become the fixed ones, or [-1,1] x [-1,1]. */
    method ClearGraphs()
      modifies this`graphs, this`xmin, this`xmax, this`ymin, this`ymax
      ensures graphs == []
      ensures Viewport() == if isFixedBound then FromRect(fixedBounds) else Bounds.Viewport(-1.0, 1.0, -1.0, 1.0)
    {
      graphs := [];
      UpdateBounds();
      NoPointsViewport([]);
    }

    /** Switches to fixed mode with the rectangle spanned by the two corners, in either order. */
    method FixBounds(left: real, top: real, right: real, bottom: real)
      modifies this`isFixedBound, this`fixedBounds, this`xmin, this`xmax, this`ymin, this`ymax
      ensures isFixedBound && fixedBounds == FixedRect(left, top, right, bottom)
      ensures Viewport() == Bounds.Viewport(Min(left, right), Max(left, right), Min(top, bottom), Max(top, bottom))
    {
      isFixedBound := true;
      fixedBounds := FixedRect(left, top, right, bottom);
      UpdateBounds();
    }

    /** Leaves fixed mode, without recomputing: the bounds stay as they were
        until the next operation that recomputes them. */
    method UnfixBounds()
      modifies this`isFixedBound
      ensures !isFixedBound
      ensures Viewport() == old(Viewport())
    {
      isFixedBound := false;
    }

    /** Data space to canvas space with the current bounds and canvas size. */
    function UpdateCoordinates(p: Point): (c: Point)
      reads this
      requires Mappable(Viewport())
      ensures canvasWidth != 0.0 && canvasHeight != 0.0 ==>
        FromCanvas(c, Viewport(), canvasWidth, canvasHeight) == p
    {
      if canvasWidth != 0.0 && canvasHeight != 0.0 then
        ToCanvasRoundTrip(p, Viewport(), canvasWidth, canvasHeight);
        ToCanvas(p, Viewport(), canvasWidth, canvasHeight)
      else
        ToCanvas(p, Viewport(), canvasWidth, canvasHeight)
    }

    /** The shapes on the canvas after a redraw of the points, and whether the
        redraw threw: a dot of negative thickness ends it with an ArgumentException. */
    method UpdatePoints() returns (shapes: seq<Primitive>, thrown: bool)
      requires Drawable(graphs, Viewport(), canvasWidth, canvasHeight)
      ensures Redraw(shapes, thrown) == Redrawn(graphs, Viewport(), canvasWidth, canvasHeight)
    {
      shapes, thrown := [], false;
      if canvasWidth != 0.0 && canvasHeight != 0.0 {
        for i := 0 to |graphs|
          invariant shapes == AllShapes(graphs[..i], Viewport(), canvasWidth, canvasHeight)
          invariant forall j :: 0 <= j < i ==> !DotRefused(graphs[j])
        {
          assert graphs[..i + 1][..i] == graphs[..i];
          var pl := graphs[i].polyline;
          if |pl.points| == 1 {
            if pl.thickness < 0.0 {
              // The ellipse's Width is set to the thickness, which WPF refuses.
              assert FirstRefused(graphs) == Some(i);
              thrown := true;
              return;
            }
            var p := UpdateCoordinates(pl.points[0]);
            shapes := shapes + [Ellipse(p.x - pl.thickness / 2.0, p.y - pl.thickness / 2.0,
                                        pl.thickness, pl.thickness, pl.stroke)];
          } else if |pl.points| > 1 {
            var mapped := [];
            for k := 0 to |pl.points|
              invariant mapped == MapAll(pl.points[..k], Viewport(), canvasWidth, canvasHeight)
            {
              mapped := mapped + [UpdateCoordinates(pl.points[k])];
            }
            assert pl.points[..|pl.points|] == pl.points;
            shapes := shapes + [Stroke(mapped, pl.stroke, pl.thickness)];
          }
        }
        assert graphs[..|graphs|] == graphs;
        assert FirstRefused(graphs) == None;
      }
    }

    /** The grid layout, grid lines and tick values after a redraw of the axes;
        nothing while the canvas has no area. */
    method UpdateAxises(margin: real) returns (axes: Option<Axes>)
      requires canvasWidth >= 0.0 && canvasHeight >= 0.0
      requires canvasWidth != 0.0 && canvasHeight != 0.0 ==> gridMinWidth > 0 && gridMinHeight > 0
      ensures axes.None? <==> canvasWidth == 0.0 || canvasHeight == 0.0
      ensures axes.Some? ==>
        AxesDrawn(axes.value, Viewport(), canvasWidth, canvasHeight, gridMinWidth, gridMinHeight, showGrid, margin)
    {
      if canvasWidth == 0.0 || canvasHeight == 0.0 {
        return None;
      }
      var g := ComputeGrid(canvasWidth, canvasHeight, gridMinWidth, gridMinHeight);
      PowerOfTwoPositive(g.nX);
      PowerOfTwoPositive(g.nY);
      var lines := [];
      if showGrid {
        lines := GridLinesAsWritten(g.nX, g.nY, g.sizeX, g.sizeY, margin, canvasWidth, canvasHeight);
      }
      var xs, ys := TickValues(Viewport(), g.nX, g.nY);
      axes := Some(Axes(g, lines, xs, ys));
    }

    /** Takes the canvas size the layout reports and redraws points and axes. When
        the redraw of the points throws, the axes are not redrawn (None). */
    method Update(width: real, height: real, margin: real)
      returns (shapes: seq<Primitive>, thrown: bool, axes: Option<Axes>)
      modifies this`canvasWidth, this`canvasHeight
      requires width >= 0.0 && height >= 0.0
      requires Drawable(graphs, Viewport(), width, height)
      requires width != 0.0 && height != 0.0 ==> gridMinWidth > 0 && gridMinHeight > 0
      ensures canvasWidth == width && canvasHeight == height
      ensures Redraw(shapes, thrown) == Redrawn(graphs, Viewport(), width, height)
      ensures thrown ==> axes.None?
      ensures !thrown ==> (axes.None? <==> width == 0.0 || height == 0.0)
      ensures axes.Some? ==>
        AxesDrawn(axes.value, Viewport(), width, height, gridMinWidth, gridMinHeight, showGrid, margin)
    {
      canvasWidth, canvasHeight := width, height;
      shapes, thrown := UpdatePoints();
      if thrown {
        return shapes, thrown, None;
      }
      axes := UpdateAxises(margin);
    }
  }

  /** The points of pts not among drop, in order, collected one by one. */
  method FilterPoints(pts: seq<Point>, drop: seq<Point>) returns (kept: seq<Point>)
    ensures kept == Without(pts, drop)
  {
    kept := [];
    for k := 0 to |pts|
      invariant kept == Without(pts[..k], drop)
    {
      assert pts[..k + 1][..k] == pts[..k];
      if !(pts[k] in drop) {
        kept := kept + [pts[k]];
      }
    }
    assert pts[..|pts|] == pts;
  }

  /** In auto mode a recompute leaves bounds under which every point is drawn on the canvas. */
  lemma AutoRedrawOnCanvas(gs: seq<Graph>, fixedBounds: Rect, canvasWidth: real, canvasHeight: real)
    requires canvasWidth >= 0.0 && canvasHeight >= 0.0
    ensures var v := Recomputed(gs, false, fixedBounds);
      Drawable(gs, v, canvasWidth, canvasHeight) &&
      var r := Shapes(gs, v, canvasWidth, canvasHeight);
      forall k :: 0 <= k < |r| ==> ShapeOnCanvas(r[k], canvasWidth, canvasHeight)
  {
    AutoShapesOnCanvas(gs, canvasWidth, canvasHeight);
  }
}

=== FILE: wrappers.dfy ===
/** Optional values, used where the plotting code may have nothing to return. */
module Wrappers {
  datatype Option<+T> = None | Some(value: T)
}
